=== FILE: README.md ===
# Rabbit study chatbot — a Dafny model of its core

Rabbit is a Streamlit study app. A student logs in with an access code and
then tutors "Rabbit", a language-model persona, through one economics
problem. This project models the logic under the glue, with every provider
call, database call, file read and widget replaced by plain values:

- **The visit's session state** (`Home.py`). This covers default filling in
  `setup`, the prompt catalog and its composed text, and
  `clear_conversation` and `change_prompt_and_reset`. It also covers the
  solution-file hint scanner, the login check and one chat turn: the user
  message, the remote conversation, the composed model input, the streamed
  reply with its fallback, the counters and the 1000-response ceiling.
  Last come the page gates for the hint and End Study Session buttons, and
  whole visits as sequences of interactions.
- **The transcript store protocol** (`utils/mongodb.py`). This covers
  `check_identifier`, session-key derivation, `log_message`,
  `log_transcript` and `update_session_key`, over a `transcripts`
  collection. That collection is the sequence of its documents, and
  `find_one` returns the first match. Only `log_transcript` is called by
  the page; the other writers are modelled as store operations.
- **Access-code provisioning** (`scripts/`). This covers the code shape,
  the output path, the document lists of the CSV and bulk flows, the
  upload, and `load_access_codes`: column choice, skipping missing cells,
  deduplication and stripping.

Modules, one per file: `Wrappers` (Option, Result), `Text` (Python
`isspace`, `strip`, `join`, `rfind`, truthiness), `Seqs` (pandas
`unique()`), `Chat`, `Prompts`, `Hints`, `Identifiers`, `Session`, `Turn`,
`Transcripts`, `Provisioning` and `Visit`.

The outcome of each provider call is an input: `Turn.Outcomes` says whether
conversation creation, the primary stream and the fallback stream succeed,
and which chunks they yield. The calls the page would make are recorded in
`TurnResult.requests`. Random draws, the console's "clear?" answer, CSV
contents and fresh document ids are also parameters.

The chat input's `disabled` flag is computed when the widget is drawn,
before the run handles what was submitted, and a turn does not rerun the
page. So the page left behind by the 1000th reply still offers the input
(`Visit.LastReplyLeavesInputOpen`). The next submission takes the closing
branch: the user text and the closing message are appended and the
conversation is finished, with no provider call
(`Visit.SubmissionAtCeilingCloses`, `Visit.LastReplyThenClosing`). The
other interactions that change the session rerun the page, which draws
every control from the final state.

The buttons are drawn at different moments of a run too. The sidebar's
New Conversation button is drawn from the session the run starts with,
before a turn stores a created id. Show Hint and End Study Session are
drawn after the turn, and not at all when the turn returns early or
raises. `Visit.World.shown` records which controls the visitor's page
offers. A submission or press takes effect only when that page offers
the control and the run handling it draws the control again
(`Visit.FirstTurnOffersNoNewConversation`,
`Visit.FailedCreationOffersNoButtons`).

## Model

| member | source | states |
|---|---|---|
| Text.StripBounds | Home.py:154 | `strip()` is empty exactly when the line is all Python whitespace; otherwise it starts and ends with non-whitespace |
| Text.StripIsSlice | Home.py:331 | the stripped text is a slice of the input with only whitespace before and after it |
| Text.StripIsLeftThenRight | Home.py:331 | `strip()` is `rstrip()` after `lstrip()` |
| Text.LastIndexOf | scripts/generate_access_codes.py:43 | the position `rsplit('.', 1)` splits at: absent exactly when no `.` occurs, otherwise a `.` with none after it |
| Seqs.Dedup | scripts/load_access_codes.py:47 | `unique()` keeps every value and only values of the input, with no repeats |
| Seqs.DedupSnoc | scripts/load_access_codes.py:47 | `unique()` of a longer column adds the new value at the end only when it has not been seen |
| Seqs.DedupFirstAppearanceOrder | scripts/generate_access_codes.py:65 | `unique()` lists values in the order of their first appearance |
| Prompts.PromptNameInjective | Home.py:21-22 | two prompt files with the same prompt name are the same file name |
| Prompts.Collect | Home.py:20-25 | the catalog's keys are the names of the `rabbit_v*.md` files; a file with no later same-named entry contributes its own content |
| Prompts.LoadAvailablePrompts | Home.py:14-27 | a missing prompts directory gives the empty catalog; otherwise the keys are the prompt names |
| Prompts.PromptWithContext | Home.py:29-42 | the composed prompt is the template (empty when unknown), then the problem heading, then the problem statement |
| Prompts.PromptWithContextRoundTrip | Home.py:29-42 | removing the heading and problem recovers the template |
| Hints.Scan | Home.py:150-157 | a found hint is the stripped first non-blank line at or after the cursor, with every line between blank; none found means all remaining lines are blank |
| Hints.NextHint | Home.py:145-161 | a missing solution file yields no hint; otherwise the scan from the session's cursor |
| Hints.ScanTakesFirstNonBlank | Home.py:150-157 | the found hint heads the remaining non-blank lines, and the rest start after its line |
| Identifiers.CheckIdentifier | utils/mongodb.py:10-18 | true exactly when some document carries the identifier |
| Session.Setup | Home.py:44-99 | each absent key gets its default; the composed prompt is recomputed exactly when it is absent or was composed for another prompt |
| Session.SetupIdempotent | Home.py:44-99 | a second `setup` on the filled session changes nothing, even with other prompt files |
| Session.Clear | Home.py:136-143 | the six conversation fields take their reset values; identifier, prompt fields and session id are kept |
| Session.ClearForgetsConversation | Home.py:136-143 | the result depends only on the kept fields, and clearing twice is clearing once |
| Session.ChangePromptAndReset | Home.py:175-182 | the same prompt is a no-op; another sets name, version and composed text, then clears |
| Session.ChangePromptIdempotent | Home.py:175-182 | selecting the prompt again changes nothing; a switch is a clear with the prompt fields replaced |
| Session.EnsureGreeting | Home.py:293-296 | an empty history receives the greeting; nothing else changes |
| Session.ShowNextHint | Home.py:163-172 | a found hint appends the same prefixed message to history and recent hints and moves the cursor past its line; no hint changes nothing |
| Session.ShowNextHintConsumesFirst | Home.py:163-172 | one request reveals the first remaining non-blank line, and the remaining hints drop it |
| Session.ShowHintsRevealsNonBlankLines | Home.py:145-172 | n requests reveal the first n remaining non-blank lines in file order, each once, and nothing once they are exhausted |
| Session.Login | Home.py:203-222 | an empty entry changes nothing; a known code is stored; an unknown one clears the stored identifier |
| Session.IsIdentifierValid | Home.py:8-12 | valid exactly when the stripped identifier is non-empty and known |
| Session.LoginThenValid | Home.py:8-12 | a typed code without surrounding whitespace passes the check exactly when it is known |
| Turn.PrimaryReplyAppend | Home.py:348-365 | the reply of a stream is the replies of its parts, in order |
| Turn.PrimaryReplyIgnoresOtherChunks | Home.py:352-363 | events of other types, and absent or empty deltas and contents, add nothing |
| Turn.StreamPrimary | Home.py:346-365 | the streaming loop accumulates exactly the chunk-by-chunk reply |
| Turn.FallbackReply | Home.py:386-392 | the fallback reply fails exactly when some chunk has no choices |
| Turn.FallbackReplyOne | Home.py:387-390 | one chunk raises without choices and otherwise contributes its first choice's content, or nothing when that is `None` |
| Turn.FallbackReplyAppend | Home.py:386-392 | the fallback reply of a stream is the replies of its parts, in order, and raises when either part raises |
| Turn.CombinedInputWithoutHints | Home.py:330-331 | with no recent hints the input is `strip("User: " + prompt)` |
| Turn.CombinedInputKeepsHints | Home.py:330-331 | with hints, the joined hints reach the model verbatim, and only trailing whitespace of the prompt is stripped |
| Turn.EnsureConversation | Home.py:103-125 | an existing id is reused with no call; otherwise one creation call, whose id is returned and stored, and a failure leaves the session as it was |
| Turn.HandleSubmission | Home.py:311-433 | the user message comes first. At the ceiling: closing message, finished, no call. Below it the page returns early exactly when no truthy id is stored or created; otherwise the reply is the primary stream's text, or after a failed primary call the fallback's text, and a raising fallback is `Raised`. A reply: counter +1, reply appended, hints cleared. No conversation or a raised fallback: counter and hints kept. The stored conversation is kept and is the one streamed to; the model input and the fallback messages are as composed (the requests themselves: `Turn.SubmissionRequests`) |
| Turn.SubmissionRequests | Home.py:318-398 | below the ceiling: the creation call exactly when no id is stored, then with a conversation exactly one stream call to it, and the fallback call exactly when the primary call fails; a created id is stored, and a failed creation stores none |
| Turn.ChatInputSubmit | Home.py:306-318 | nothing is handled, and nobody called, exactly when no text was submitted or the page showed the input disabled (the handled turn: `Turn.HandleSubmission`) |
| Turn.CeilingCloses | Home.py:316-318 | a submission at or over the ceiling appends the user text and the closing message, finishes the conversation and calls nobody |
| Turn.CounterBounded | Home.py:318-422 | a submission raises the counter by at most one, never past the ceiling |
| Turn.SampleStreamReply | Home.py:348-363 | two text deltas, a completion event and an untyped chunk give "Hi there!": the event adds nothing |
| Turn.StreamedTurn | Home.py:318-365 | that stream, in an existing conversation, is the reply, after one request, and counts one response |
| Turn.SampleFallbackReply | Home.py:386-390 | first-choice contents are concatenated and a missing content adds nothing |
| Turn.FallbackTurn | Home.py:367-392 | a failed primary call answered by the fallback counts as one response, after both requests |
| Transcripts.SessionKeyShape | utils/mongodb.py:34 | the key is the user identifier, an underscore, then the conversation id (or the session id) |
| Transcripts.SessionKeyDeterminesId | utils/mongodb.py:94 | for one user, equal keys exactly when the ids they are built from are equal |
| Transcripts.Find | utils/mongodb.py:44-47 | a position `find_one` reports holds a document with the key |
| Transcripts.FindSpec | utils/mongodb.py:44-47 | `find_one` finds nothing exactly when no document has the key, and otherwise the first document with it |
| Transcripts.OnlyDocumentWithKey | utils/mongodb.py:43-47 | under one-document-per-key, the document found is the only one with its key |
| Transcripts.LogMessage | utils/mongodb.py:20-78 | an id is returned exactly for the study's conversation type, and at most one document is added (its cases: the `LogMessage*` lemmas) |
| Transcripts.LogMessageIgnoresOtherTypes | utils/mongodb.py:27 | another conversation type writes nothing and returns `None` |
| Transcripts.LogMessageAppends | utils/mongodb.py:49-61 | an existing document gets the message at the end and count + 1, its id is returned, and other keys are untouched |
| Transcripts.LogMessageCreates | utils/mongodb.py:62-76 | an absent key gets one new document with just this message and count 1; other keys are untouched |
| Transcripts.LogMessagePreservesWf | utils/mongodb.py:43-76 | logging keeps one document per key and counts equal to message numbers |
| Transcripts.LogAllOneDocument | utils/mongodb.py:43-76 | N calls on a fresh key leave one document holding the N entries in order, with count N |
| Transcripts.LogAllPreservesWf | utils/mongodb.py:43-76 | that document is the only one for its key |
| Transcripts.LogTranscript | utils/mongodb.py:80-133 | an id is returned exactly for the study's conversation type, and at most one document is added (its cases: the `LogTranscript*` lemmas) |
| Transcripts.LogTranscriptIgnoresOtherTypes | utils/mongodb.py:87 | another conversation type writes nothing and returns `None` |
| Transcripts.LogTranscriptMarksCompleted | utils/mongodb.py:102-114 | an existing document only becomes completed; messages, count and other keys are kept |
| Transcripts.LogTranscriptCreates | utils/mongodb.py:115-131 | an absent key gets a completed document whose entries are the history with indices 0..n-1 and count n |
| Transcripts.LogTranscriptIdempotent | utils/mongodb.py:97-131 | a second call changes nothing and returns the same id |
| Transcripts.LogTranscriptPreservesWf | utils/mongodb.py:97-131 | marking or creating keeps one document per key |
| Transcripts.UpdateSessionKeyAsWritten | utils/mongodb.py:135-180 | an id is returned exactly when a document has the old key; no document is added, and none is removed when the new key is absent |
| Transcripts.UpdateToSameKeyDeletes | utils/mongodb.py:155-169 | as written, re-keying a session to its own key removes its transcript |
| Transcripts.UpdateSessionKeyOldAbsent | utils/mongodb.py:148-178 | no document under the old key: nothing changes and `None` is returned |
| Transcripts.UpdateSessionKeySameKey | utils/mongodb.py:135-180 | re-keying to the same key changes nothing |
| Transcripts.UpdateSessionKeyMerges | utils/mongodb.py:155-169 | both keys present: new messages followed by old ones, count + old message number, old document gone, new id returned, other keys kept |
| Transcripts.UpdateSessionKeyRenames | utils/mongodb.py:170-176 | only the old key present: the same document under the new key, nothing else changed |
| Transcripts.UpdateSessionKeyAsWrittenPreservesWf | utils/mongodb.py:141-178 | re-keying as written keeps one document per key, on the same-key path too |
| Transcripts.UpdateSessionKeyPreservesWf | utils/mongodb.py:141-178 | the corrected re-keying keeps one document per key |
| Provisioning.AlphabetChar | scripts/generate_access_codes.py:24 | every alphabet position holds an uppercase letter or a digit |
| Provisioning.AlphabetIsUppercaseThenDigits | scripts/generate_access_codes.py:24 | the positions spell `A`..`Z` then `0`..`9` |
| Provisioning.GenerateAccessCode | scripts/generate_access_codes.py:21-26 | the code is the prefix followed by exactly `length` characters, each an uppercase letter or digit |
| Provisioning.GenerateAccessCodeInjective | scripts/generate_access_codes.py:25-26 | distinct draws give distinct codes |
| Provisioning.DefaultCodeShapes | scripts/generate_access_codes.py:21 | default codes are `RABBIT` plus five characters; the bulk flow's codes are five characters |
| Provisioning.OutputPath | scripts/generate_access_codes.py:43 | the output path ends with the suffix; without a `.` it keeps the whole path; otherwise the stem is the path up to its last `.` |
| Provisioning.UploadThenCheck | scripts/generate_access_codes.py:52-70 | afterwards an identifier is known exactly when it was inserted or kept; an empty list inserts nothing |
| Provisioning.DistinctCodeDocuments | scripts/generate_access_codes.py:58-66 | one study-typed document per distinct generated code, no identifier twice |
| Provisioning.UploadedCodesKnown | scripts/generate_access_codes.py:58-70 | after uploading the distinct codes an identifier is known exactly when it is a code or a kept document's |
| Provisioning.UploadedCodesOnce | scripts/generate_access_codes.py:58-70 | the kept documents stay in front, and no code is inserted twice |
| Provisioning.GenerateFromCsv | scripts/generate_access_codes.py:28-70 | row i of the CSV gets the code of its draws (the upload: `Provisioning.CsvRunUploadsDistinctCodes`) |
| Provisioning.CsvRunUploadsDistinctCodes | scripts/generate_access_codes.py:37-70 | every row gets a code; afterwards an identifier is known exactly when it is a generated code or a kept document's, at most one document per row is added, and no code is inserted twice |
| Provisioning.GenerateBulk | scripts/generate_access_codes.py:87-118 | one code per draw list, in order (the upload: `Provisioning.BulkUploadsEveryCode`) |
| Provisioning.BulkUploadsEveryCode | scripts/generate_access_codes.py:93-118 | exactly `num_codes` documents, one per code in order, each code five characters |
| Provisioning.SelectColumn | scripts/load_access_codes.py:27-32 | `access_code` wins over `identifier`; neither is an error |
| Provisioning.PresentTexts | scripts/load_access_codes.py:48 | only non-missing cells contribute, and every one of them does |
| Provisioning.LoadAccessCodes | scripts/load_access_codes.py:27-57 | the error arises exactly when neither column exists, with no upload; otherwise the column's documents are uploaded |
| Provisioning.CellDocuments | scripts/load_access_codes.py:47-53 | no more documents than cells, each typed for the study (contents: `Provisioning.CellDocumentsAreStrippedValues`, `Provisioning.CellDocumentsCoverColumn`) |
| Provisioning.PresentTextsDedup | scripts/load_access_codes.py:47-48 | skipping missing cells commutes with `unique()` |
| Provisioning.CellDocumentsAreStrippedValues | scripts/load_access_codes.py:47-53 | one stripped, study-typed document per distinct present raw value, in the order `unique()` gives them |
| Provisioning.CellDocumentsCoverColumn | scripts/load_access_codes.py:47-53 | every present cell of the column is loaded, under its stripped text |
| Provisioning.PaddedDuplicatesBothLoaded | scripts/load_access_codes.py:47-50 | `" A1"` and `"A1"` both become documents for `A1`, and a missing cell is skipped |
| Visit.Step | Home.py:225-463 | one run of the chat page keeps the user identifier, writes the store only when ending the session, and keeps the prompt unless it is a reset; pressing a button the visitor's page does not offer is a plain run of the page (the effects: the `Visit` lemmas) |
| Visit.RunCounterBounded | Home.py:304-433 | over any visit the counter never passes 1000 |
| Visit.RunPreservesWf | Home.py:449-461 | over any visit the store keeps one document per session key |
| Visit.RunHintMonotone | Home.py:438-447 | without a reset the hint cursor never moves back |
| Visit.RunCoherent | Home.py:306-463 | over any visit the counter stays within the ceiling, no page offers an enabled input in a finished session, and a finished session's page offers only what is drawn from it |
| Visit.StepFinishedFrozen | Home.py:306-451 | a finished session is changed by no interaction other than a reset |
| Visit.RunFinishedFrozen | Home.py:306-451 | the same holds for any run of such interactions |
| Visit.EndSessionRecordsTranscript | Home.py:449-461 | ending the session from a page offering the button finishes it, leaves a completed transcript under its key, and stores that document's id as the session id |
| Visit.SubmitKeepsSessionKey | Home.py:306-425 | a turn in an existing conversation keeps the session key its messages are logged under |
| Visit.LastReplyLeavesInputOpen | Home.py:304-424 | the input was drawn before the 1000th reply was counted, so the page after it still offers the input, unfinished, with the reply last |
| Visit.SubmissionAtCeilingCloses | Home.py:306-433 | a submission through an input left open at the ceiling takes the closing branch: closing message, finished, store unchanged, input drawn disabled next |
| Visit.LastReplyThenClosing | Home.py:304-433 | after the 1000th reply the next submission is answered with the closing message and finishes the session |
| Visit.FirstTurnOffersNoNewConversation | Home.py:265-271 | the New Conversation button is drawn before the turn creates the conversation, so the page that turn leaves has none, and a press there keeps the conversation |
| Visit.FailedCreationOffersNoButtons | Home.py:318-324 | a failed creation stores no id and returns before the action buttons: the page offers neither Show Hint nor End Study Session, and pressing either changes nothing |

## Left out

- Streamlit rendering is not modelled: markdown, CSS, images, the sidebar's display names, `st.rerun` as control flow, and the login page's text. A rerun is modelled as the next run's greeting and its drawing of the page's controls.
- Which names the prompt selector offers is not modelled. `Visit.SelectPrompt` accepts any name, including the case where the current prompt is missing from the catalog and the selector falls back to the first entry.
- The provider calls are not modelled. `conversations.create`, `responses.create`, `chat.completions.create` and `get_conversation_info` become outcomes. A stream that fails part-way is a failed primary call, because the fallback starts from an empty text.
- The second `except` block after the fallback (Home.py:394-419) is not modelled. It can never run, so an exception in the fallback propagates and is the `Raised` status.
- pymongo is not modelled: connections, `ObjectId` generation (fresh ids are parameters), and `datetime.utcnow` timestamps. `delete_one` by `_id` is deletion of the document that was found.
- Atomicity is not modelled. Every find-then-write runs sequentially, and nothing is claimed about concurrent writers.
- The absent-key defaults of the logging functions (`"anonymous"`, `"unknown_session"`, `"rabbit_v1"`) are not modelled, because `setup` always sets those keys first. The model reads the session's values through `Transcripts.Context`.
- The Start Study Session button of the login page (Home.py:214-218) is not modelled. It clears the conversation, as `Session.Clear` does, and sets `show_chat`, which the model does not hold; `Session.Login` covers the rest of Home.py:203-222 and the visit model starts on the chat page.
- No page calls `log_message`, so it is modelled as a store operation and not as part of a turn.
- No page calls `update_session_key` either, so it is modelled as a store operation; the finding below is a latent defect of that function.
- Streamlit's widget protocol is not modelled beyond two assumptions. A submission made through an input drawn enabled reaches the next run, even when that run draws the input disabled. A button press reaches the next run only when that run draws the button again.
- `Visit.Page.hintFile`: the solution file is read once for the whole visit, while `get_next_hint` reopens prompts/solution.md on every call (Home.py:147-148). The model assumes the file does not change during a visit.
- The `print(chunk)` console output inside the streaming loop (Home.py:349) is not modelled.
- pandas is not modelled. Cells are text or missing. `str()` of numeric cells (such as `"123.0"`) is not modelled, and the CSV files read and written by the scripts are not modelled (the bulk flow's timestamped CSV name is out).
- The console is not modelled: `input()`, the `__main__` menus, `toml` secrets and logging. The "clear existing codes?" answer is the `clear` parameter.
- `list_access_codes` and `delete_access_codes` in scripts/load_access_codes.py are not modelled, because they are console utilities outside the provisioning flow.
- `random.choices` becomes given draws, one alphabet position per character.
- Negative `length` and `num_codes` are not modelled; both are `nat`.
- The economics problem statement (Home.py:34-40) is an opaque parameter (`Prompts.Source.problem`), and the model name, API keys and `mongodb_uri` are left out.
- Turn.CombinedInputKeepsHints: proved only when the first recent hint starts with the hint prefix, which every hint revealed by `show_next_hint` does.

## Findings

| source | as written | input that shows it | evidently intended | confidence | as-written member | corrected member |
|---|---|---|---|---|---|---|
| utils/mongodb.py:155-169 | when the old and new session keys are equal, the lookup of the new key finds the old document itself; its messages are pushed onto itself and then that document is deleted by its `_id` | `update_session_key(uri, "u_c1", "u_c1")` with one document under `u_c1` | re-keying a session to the key it already has leaves its transcript in place | not executed | Transcripts.UpdateToSameKeyDeletes | Transcripts.UpdateSessionKeySameKey |

=== FILE: chat.dfy ===
/** The chat messages kept in the session's history and sent to the
    language-model provider: a role and a text. */
module Chat {

  datatype Role = System | User | Assistant

  datatype Message = Message(role: Role, content: string)
}

=== FILE: hints.dfy ===
/** The hint script reader of Home.py (`get_next_hint`): the lines of the
    solution file are scanned from the session's hint cursor for the next
    line that is not blank once stripped. */
module Hints {
  import opened Wrappers
  import opened Text

  /** `Hint(text, line)` is the pair `(hint_line, current_index)`;
      `NoHint` is the pair `(None, -1)`. */
  datatype Lookup = Hint(text: string, line: nat) | NoHint

  predicate Blank(line: string) {
    Strip(line) == ""
  }

  /** The scanning loop, from line `i` on. */
  function Scan(lines: seq<string>, i: nat): (r: Lookup)
    ensures r.Hint? ==> && i <= r.line < |lines|
                        && r.text == Strip(lines[r.line]) && r.text != ""
                        && forall k | i <= k < r.line :: Blank(lines[k])
    ensures r.NoHint? ==> forall k | i <= k < |lines| :: Blank(lines[k])
    decreases |lines| - i
  {
    if i >= |lines| then NoHint
    else if Strip(lines[i]) != "" then Hint(Strip(lines[i]), i)
    else Scan(lines, i + 1)
  }

  /** `get_next_hint`: `file` holds the lines of the solution file as
      `readlines` returns them, or `None` when the file is missing. */
  function NextHint(file: Option<seq<string>>, cursor: nat): (r: Lookup)
    ensures file.None? ==> r == NoHint
    ensures file.Some? ==> r == Scan(file.value, cursor)
  {
    match file
    case None => NoHint
    case Some(lines) => Scan(lines, cursor)
  }

  /** The stripped non-blank lines from line `i` on, in file order: the
      hints still to be revealed. */
  function NonBlankFrom(lines: seq<string>, i: nat): seq<string>
    decreases |lines| - i
  {
    if i >= |lines| then []
    else (if Blank(lines[i]) then [] else [Strip(lines[i])]) + NonBlankFrom(lines, i + 1)
  }

  /** A found hint is the first of the remaining non-blank lines, and the
      ones after it start right after its line; nothing found means none
      remain. */
  lemma {:induction false} ScanTakesFirstNonBlank(lines: seq<string>, i: nat)
    ensures Scan(lines, i).NoHint? ==> NonBlankFrom(lines, i) == []
    ensures Scan(lines, i).Hint? ==>
              NonBlankFrom(lines, i) == [Scan(lines, i).text] + NonBlankFrom(lines, Scan(lines, i).line + 1)
    decreases |lines| - i
  {
    if i >= |lines| {
    } else if Blank(lines[i]) {
      assert Scan(lines, i) == Scan(lines, i + 1);
      assert NonBlankFrom(lines, i) == [] + NonBlankFrom(lines, i + 1);
      ScanTakesFirstNonBlank(lines, i + 1);
    } else {
      assert Scan(lines, i) == Hint(Strip(lines[i]), i);
    }
  }
}

=== FILE: identifiers.dfy ===
/** The `valid_identifiers` collection of utils/mongodb.py: the access
    codes a visitor may log in with, one document per issued code. */
module Identifiers {

  /** The `type` tag the provisioning scripts give every document.
      Transcripts use the same value as their `conversation_type`
      (`Transcripts.StudyConversation`). */
  const StudyType := "rabbit_study"

  datatype IdentifierDoc = IdentifierDoc(identifier: string, kind: string)

  /** `check_identifier`: whether some document carries this identifier. */
  function CheckIdentifier(valid: seq<IdentifierDoc>, x: string): (b: bool)
    ensures b <==> exists i | 0 <= i < |valid| :: valid[i].identifier == x
    decreases |valid|
  {
    if |valid| == 0 then false
    else if valid[0].identifier == x then true
    else
      var b := CheckIdentifier(valid[1..], x);
      assert forall i | 1 <= i < |valid| :: valid[i] == valid[1..][i - 1];
      b
  }
}

=== FILE: prompts.dfy ===
/** The prompt catalog of Home.py: the `rabbit_v*.md` files of the prompts
    directory, each joined with the fixed economics problem statement. */
module Prompts {
  import opened Wrappers
  import opened Text

  datatype PromptFile = PromptFile(filename: string, content: string)

  /** What the catalog is built from: the prompts directory (`None` when it
      does not exist, otherwise its entries in `os.listdir` order with each
      file's text) and the problem statement, an opaque constant of the
      application. */
  datatype Source = Source(listing: Option<seq<PromptFile>>, problem: string)

  const FilePrefix := "rabbit_v"
  const FileSuffix := ".md"
  const ProblemHeading := "\n\n## The Economics Problem\n"

  predicate IsPromptFile(filename: string) {
    StartsWith(filename, FilePrefix) && EndsWith(filename, FileSuffix)
  }

  /** The file name without its `.md` extension. */
  function PromptName(filename: string): string
    requires IsPromptFile(filename)
  {
    filename[..|filename| - |FileSuffix|]
  }

  /** Two prompt files share a prompt name only if they share a file name. */
  lemma {:induction false} PromptNameInjective(a: string, b: string)
    requires IsPromptFile(a) && IsPromptFile(b)
    ensures PromptName(a) == PromptName(b) ==> a == b
  {
    if PromptName(a) == PromptName(b) {
      assert a == PromptName(a) + a[|a| - |FileSuffix|..];
      assert b == PromptName(b) + b[|b| - |FileSuffix|..];
    }
  }

  /** The names of the prompt files among the directory entries. */
  function PromptNames(files: seq<PromptFile>): set<string> {
    set i | 0 <= i < |files| && IsPromptFile(files[i].filename) :: PromptName(files[i].filename)
  }

  /** No entry after the `i`th has the same file name. */
  predicate IsLast(files: seq<PromptFile>, i: nat)
    requires i < |files|
  {
    forall j | i < j < |files| :: files[j].filename != files[i].filename
  }

  /** Every prompt file that is the last entry with its file name has its
      content under its prompt name in `m`. */
  predicate Latest(files: seq<PromptFile>, m: map<string, string>) {
    forall i | 0 <= i < |files| && IsPromptFile(files[i].filename) && IsLast(files, i)
      :: PromptName(files[i].filename) in m && m[PromptName(files[i].filename)] == files[i].content
  }

  /** The dictionary the directory loop builds, entry by entry; a later
      entry under the same name replaces an earlier one. */
  function Collect(files: seq<PromptFile>): (m: map<string, string>)
    ensures m.Keys == PromptNames(files)
    ensures Latest(files, m)
    decreases |files|
  {
    if |files| == 0 then map[]
    else
      var m := Collect(files[..|files| - 1]);
      PromptNamesSnoc(files);
      CollectStep(files, m);
      var f := files[|files| - 1];
      if IsPromptFile(f.filename) then m[PromptName(f.filename) := f.content] else m
  }

  lemma PromptNamesSnoc(files: seq<PromptFile>)
    requires |files| > 0
    ensures var f := files[|files| - 1];
            PromptNames(files) == PromptNames(files[..|files| - 1])
                                  + (if IsPromptFile(f.filename) then {PromptName(f.filename)} else {})
  {
    var init := files[..|files| - 1];
    assert forall i | 0 <= i < |init| :: init[i] == files[i];
  }

  /** One more entry: its content goes under its name, and an earlier
      entry is still the last with its file name only if it has another
      prompt name. */
  lemma {:induction false} CollectStep(files: seq<PromptFile>, m: map<string, string>)
    requires |files| > 0 && Latest(files[..|files| - 1], m)
    ensures var f := files[|files| - 1];
            Latest(files, if IsPromptFile(f.filename) then m[PromptName(f.filename) := f.content] else m)
  {
    var init := files[..|files| - 1];
    var f := files[|files| - 1];
    var m' := if IsPromptFile(f.filename) then m[PromptName(f.filename) := f.content] else m;
    forall i | 0 <= i < |files| && IsPromptFile(files[i].filename) && IsLast(files, i)
      ensures PromptName(files[i].filename) in m' && m'[PromptName(files[i].filename)] == files[i].content
    {
      if i < |files| - 1 {
        assert files[i] == init[i];
        assert IsLast(init, i) by {
          forall j | i < j < |init| ensures init[j].filename != init[i].filename {
            assert init[j] == files[j];
          }
        }
        if IsPromptFile(f.filename) {
          PromptNameInjective(files[i].filename, f.filename);
        }
      }
    }
  }

  /** `load_available_prompts`: prompt name to file text. */
  function LoadAvailablePrompts(listing: Option<seq<PromptFile>>): (m: map<string, string>)
    ensures listing.None? ==> m == map[]
    ensures listing.Some? ==> m.Keys == PromptNames(listing.value)
  {
    match listing
    case None => map[]
    case Some(files) => Collect(files)
  }

  /** The template under a name, or the empty text for an unknown name. */
  function Template(src: Source, name: string): string {
    var prompts := LoadAvailablePrompts(src.listing);
    if name in prompts then prompts[name] else ""
  }

  /** `get_prompt_with_context`: the template followed by the problem
      heading and the problem statement. */
  function PromptWithContext(src: Source, name: string): (r: string)
    ensures StartsWith(r, Template(src, name))
    ensures |r| == |Template(src, name)| + |ProblemHeading| + |src.problem|
    ensures r[|Template(src, name)|..] == ProblemHeading + src.problem
  {
    var t := Template(src, name);
    var r := t + (ProblemHeading + src.problem);
    assert r[|t|..] == ProblemHeading + src.problem;
    r
  }

  /** Removing the problem context from a composed prompt. */
  function TemplateOf(full: string, problem: string): string
    requires |full| >= |ProblemHeading| + |problem|
  {
    full[..|full| - |ProblemHeading| - |problem|]
  }

  /** Composition loses nothing: the template is recovered from the composed
      instruction text, and an unknown name composes to the context alone. */
  lemma {:induction false} PromptWithContextRoundTrip(src: Source, name: string)
    ensures TemplateOf(PromptWithContext(src, name), src.problem) == Template(src, name)
    ensures name !in LoadAvailablePrompts(src.listing) ==>
              PromptWithContext(src, name) == ProblemHeading + src.problem
  {
    var r := PromptWithContext(src, name);
    assert r[..|Template(src, name)|] == Template(src, name);
  }
}

=== FILE: provisioning.dfy ===
/** The access-code provisioning scripts: generating codes from a CSV of
    participants or in bulk (scripts/generate_access_codes.py), and loading
    codes from a CSV column (scripts/load_access_codes.py), each ending in
    an upload to the `valid_identifiers` collection. CSV files, the console
    prompt and the random generator are replaced by given values. */
module Provisioning {
  import opened Wrappers
  import opened Text
  import opened Seqs
  import opened Identifiers

  const AlphabetSize := 36

  predicate IsUpperOrDigit(c: char) {
    'A' <= c <= 'Z' || '0' <= c <= '9'
  }

  /** Position `p` of `string.ascii_uppercase + string.digits`. */
  function AlphabetChar(p: nat): (c: char)
    requires p < AlphabetSize
    ensures IsUpperOrDigit(c)
  {
    if p < 26 then ('A' as int + p) as char else ('0' as int + (p - 26)) as char
  }

  /** Each character of the alphabet sits at one position only. */
  lemma AlphabetCharInjective(p: nat, q: nat)
    requires p < AlphabetSize && q < AlphabetSize && AlphabetChar(p) == AlphabetChar(q)
    ensures p == q
  {
  }

  lemma AlphabetIsUppercaseThenDigits()
    ensures seq(AlphabetSize, p requires 0 <= p < AlphabetSize => AlphabetChar(p))
            == "ABCDEFGHIJKLMNOPQRSTUVWXYZ0123456789"
  {
  }
  const DefaultPrefix := "RABBIT"
  const DefaultLength := 5
  const BulkPrefix := ""
  const OutputSuffix := "_with_access_codes.csv"

  /** Positions into the alphabet, as `random.choices` picks them. */
  predicate ValidDraws(draws: seq<nat>) {
    forall j | 0 <= j < |draws| :: draws[j] < AlphabetSize
  }

  /** `generate_access_code(prefix, length)`: the prefix, then one
      alphabet character per draw. */
  function GenerateAccessCode(prefix: string, length: nat, draws: seq<nat>): (code: string)
    requires |draws| == length && ValidDraws(draws)
    ensures |code| == |prefix| + length
    ensures StartsWith(code, prefix)
    ensures forall i | |prefix| <= i < |code| :: IsUpperOrDigit(code[i])
  {
    prefix + seq(length, i requires 0 <= i < length => AlphabetChar(draws[i]))
  }

  /** Distinct draws give distinct codes: no two alphabet positions share a
      character, so the code determines the draws. */
  lemma GenerateAccessCodeInjective(prefix: string, length: nat, a: seq<nat>, b: seq<nat>)
    requires |a| == length && ValidDraws(a) && |b| == length && ValidDraws(b)
    requires GenerateAccessCode(prefix, length, a) == GenerateAccessCode(prefix, length, b)
    ensures a == b
  {
    var ca := GenerateAccessCode(prefix, length, a);
    var cb := GenerateAccessCode(prefix, length, b);
    forall i | 0 <= i < length ensures a[i] == b[i] {
      assert ca[|prefix| + i] == AlphabetChar(a[i]);
      assert cb[|prefix| + i] == AlphabetChar(b[i]);
      AlphabetCharInjective(a[i], b[i]);
    }
  }

  /** The defaults: `RABBIT` and five characters; the bulk flow's empty
      prefix leaves exactly five. */
  lemma DefaultCodeShapes(draws: seq<nat>)
    requires |draws| == DefaultLength && ValidDraws(draws)
    ensures |GenerateAccessCode(DefaultPrefix, DefaultLength, draws)| == 11
    ensures GenerateAccessCode(DefaultPrefix, DefaultLength, draws)[..6] == "RABBIT"
    ensures |GenerateAccessCode(BulkPrefix, DefaultLength, draws)| == 5
  {
  }

  /** The CSV written next to the input: the path up to its last `.`
      (the whole path when it has none), then the suffix. */
  function OutputPath(inputPath: string): (r: string)
    ensures EndsWith(r, OutputSuffix)
    ensures '.' !in inputPath ==> r == inputPath + OutputSuffix
    ensures '.' in inputPath ==>
              var stem := r[..|r| - |OutputSuffix|];
              && |stem| < |inputPath| && inputPath[..|stem|] == stem
              && inputPath[|stem|] == '.'
              && '.' !in inputPath[|stem| + 1..]
  {
    match LastIndexOf(inputPath, '.')
    case None => inputPath + OutputSuffix
    case Some(i) =>
      var r := inputPath[..i] + OutputSuffix;
      assert r[..|r| - |OutputSuffix|] == inputPath[..i];
      r
  }

  /** One `valid_identifiers` document per identifier, in order. */
  function Documents(ids: seq<string>): (docs: seq<IdentifierDoc>)
    ensures |docs| == |ids|
    ensures forall i | 0 <= i < |docs| :: docs[i].identifier == ids[i] && docs[i].kind == StudyType
  {
    seq(|ids|, i requires 0 <= i < |ids| => IdentifierDoc(ids[i], StudyType))
  }

  /** The console answer: delete every document first, or keep them; then
      `insert_many`, skipped when there is nothing to insert. */
  function Upload(valid: seq<IdentifierDoc>, clear: bool, docs: seq<IdentifierDoc>): seq<IdentifierDoc> {
    var base := if clear then [] else valid;
    if docs == [] then base else base + docs
  }

  /** After an upload exactly the inserted identifiers, and the kept ones,
      pass `check_identifier`; an empty upload inserts nothing. */
  lemma UploadThenCheck(valid: seq<IdentifierDoc>, clear: bool, docs: seq<IdentifierDoc>, x: string)
    ensures var after := Upload(valid, clear, docs);
            && (docs == [] ==> after == (if clear then [] else valid))
            && (CheckIdentifier(after, x) <==>
                  CheckIdentifier(docs, x) || (!clear && CheckIdentifier(valid, x)))
  {
    var base := if clear then [] else valid;
    var after := Upload(valid, clear, docs);
    if CheckIdentifier(after, x) && docs != [] {
      var i :| 0 <= i < |after| && after[i].identifier == x;
      if i >= |base| { assert docs[i - |base|] == after[i]; } else { assert after[i] == base[i]; }
    }
    if !clear && CheckIdentifier(valid, x) {
      var i :| 0 <= i < |valid| && valid[i].identifier == x;
      if docs != [] { assert after[i] == valid[i]; }
    }
    if CheckIdentifier(docs, x) {
      var i :| 0 <= i < |docs| && docs[i].identifier == x;
      assert after[|base| + i] == docs[i];
    }
  }

  /** The codes of one run, one per row or per requested code. */
  function Codes(prefix: string, draws: seq<seq<nat>>): (codes: seq<string>)
    requires forall i | 0 <= i < |draws| :: |draws[i]| == DefaultLength && ValidDraws(draws[i])
    ensures |codes| == |draws|
    ensures forall i | 0 <= i < |codes| :: codes[i] == GenerateAccessCode(prefix, DefaultLength, draws[i])
  {
    seq(|draws|, i requires 0 <= i < |draws| => GenerateAccessCode(prefix, DefaultLength, draws[i]))
  }

  /** What `generate_access_codes_from_csv` leaves behind: the path of the
      CSV it writes, the `access_code` column of that CSV and the
      collection. */
  datatype CsvRun = CsvRun(outputPath: string, column: seq<string>, valid: seq<IdentifierDoc>)

  /** `generate_access_codes_from_csv`, with one draw list per row of the
      input CSV. */
  function GenerateFromCsv(inputPath: string, prefix: string, draws: seq<seq<nat>>,
                           valid: seq<IdentifierDoc>, clear: bool): (r: CsvRun)
    requires forall i | 0 <= i < |draws| :: |draws[i]| == DefaultLength && ValidDraws(draws[i])
    ensures |r.column| == |draws|
    ensures forall i | 0 <= i < |draws| :: r.column[i] == GenerateAccessCode(prefix, DefaultLength, draws[i])
  {
    var codes := Codes(prefix, draws);
    CsvRun(OutputPath(inputPath), codes, Upload(valid, clear, Documents(Dedup(codes))))
  }

  /** The documents of the distinct codes: each code once, typed for the
      study. */
  lemma {:induction false} DistinctCodeDocuments(codes: seq<string>)
    ensures var docs := Documents(Dedup(codes));
            && (forall i | 0 <= i < |docs| :: docs[i].kind == StudyType && docs[i].identifier in codes)
            && (forall i | 0 <= i < |codes| :: exists k | 0 <= k < |docs| :: docs[k].identifier == codes[i])
            && (forall i, j | 0 <= i < j < |docs| :: docs[i].identifier != docs[j].identifier)
  {
    var ids := Dedup(codes);
    var docs := Documents(ids);
    forall i | 0 <= i < |codes| ensures exists k | 0 <= k < |docs| :: docs[k].identifier == codes[i] {
      assert codes[i] in ids;
      var k :| 0 <= k < |ids| && ids[k] == codes[i];
      assert docs[k].identifier == codes[i];
    }
  }

  /** Uploading the distinct codes makes an identifier known exactly when
      it is a code or a kept document's. */
  lemma UploadedCodesKnown(valid: seq<IdentifierDoc>, clear: bool, codes: seq<string>, x: string)
    ensures CheckIdentifier(Upload(valid, clear, Documents(Dedup(codes))), x)
            <==> x in codes || (!clear && CheckIdentifier(valid, x))
  {
    var docs := Documents(Dedup(codes));
    UploadThenCheck(valid, clear, docs, x);
    if x in codes {
      DistinctCodeDocuments(codes);
      var i :| 0 <= i < |codes| && codes[i] == x;
      var k :| 0 <= k < |docs| && docs[k].identifier == codes[i];
    }
  }

  /** The upload keeps the kept documents in front and adds each distinct
      code once. */
  lemma UploadedCodesOnce(valid: seq<IdentifierDoc>, clear: bool, codes: seq<string>)
    ensures var after := Upload(valid, clear, Documents(Dedup(codes)));
            var base := if clear then [] else valid;
            && |base| <= |after| <= |base| + |codes|
            && after[..|base|] == base
            && (forall i, j | |base| <= i < j < |after| :: after[i].identifier != after[j].identifier)
  {
    var ids := Dedup(codes);
    var docs := Documents(ids);
    var base := if clear then [] else valid;
    var after := Upload(valid, clear, docs);
    assert after == base + docs;
    forall i, j | |base| <= i < j < |after| ensures after[i].identifier != after[j].identifier {
      assert after[i].identifier == ids[i - |base|] && after[j].identifier == ids[j - |base|];
    }
  }

  /** Every row gets a code in the CSV. Afterwards the collection knows
      an identifier exactly when it is one of those codes or a kept
      document's, and no code is inserted twice, however often it was
      drawn. */
  lemma CsvRunUploadsDistinctCodes(inputPath: string, prefix: string, draws: seq<seq<nat>>,
                                   valid: seq<IdentifierDoc>, clear: bool, x: string)
    requires forall i | 0 <= i < |draws| :: |draws[i]| == DefaultLength && ValidDraws(draws[i])
    ensures var run := GenerateFromCsv(inputPath, prefix, draws, valid, clear);
            var base := if clear then [] else valid;
            && |run.column| == |draws|
            && |base| <= |run.valid| <= |base| + |draws|
            && run.valid[..|base|] == base
            && (CheckIdentifier(run.valid, x) <==> x in run.column || (!clear && CheckIdentifier(valid, x)))
            && (forall i, j | |base| <= i < j < |run.valid| :: run.valid[i].identifier != run.valid[j].identifier)
  {
    var codes := Codes(prefix, draws);
    UploadedCodesKnown(valid, clear, codes, x);
    UploadedCodesOnce(valid, clear, codes);
  }

  /** `generate_bulk_access_codes(num_codes)`: the codes, one per draw list,
      and the collection. */
  function GenerateBulk(prefix: string, draws: seq<seq<nat>>, valid: seq<IdentifierDoc>, clear: bool)
    : (r: (seq<string>, seq<IdentifierDoc>))
    requires forall i | 0 <= i < |draws| :: |draws[i]| == DefaultLength && ValidDraws(draws[i])
    ensures |r.0| == |draws|
    ensures forall i | 0 <= i < |draws| :: r.0[i] == GenerateAccessCode(prefix, DefaultLength, draws[i])
  {
    var codes := Codes(prefix, draws);
    (codes, Upload(valid, clear, Documents(codes)))
  }

  /** Exactly `num_codes` documents are inserted, one per code in order,
      without deduplication; with the bulk prefix each is five characters. */
  lemma BulkUploadsEveryCode(draws: seq<seq<nat>>, valid: seq<IdentifierDoc>, clear: bool)
    requires forall i | 0 <= i < |draws| :: |draws[i]| == DefaultLength && ValidDraws(draws[i])
    ensures var (codes, after) := GenerateBulk(BulkPrefix, draws, valid, clear);
            var base := if clear then [] else valid;
            && |after| == |base| + |draws|
            && after[..|base|] == base
            && (forall i | 0 <= i < |draws| ::
                  after[|base| + i] == IdentifierDoc(codes[i], StudyType) && |codes[i]| == DefaultLength)
  {
  }

  /** A CSV cell: pandas' `NaN` for an empty cell, or its text. */
  datatype Cell = Missing | Present(text: string)

  datatype LoadError = MissingCodeColumn

  /** A CSV read into columns. */
  type Table = map<string, seq<Cell>>

  /** `access_code` is preferred to `identifier`; neither is an error. */
  function SelectColumn(table: Table): (r: Result<string, LoadError>)
    ensures r.Ok? <==> "access_code" in table || "identifier" in table
    ensures r.Ok? ==> r.value in table
    ensures "access_code" in table ==> r == Ok("access_code")
  {
    if "access_code" in table then Ok("access_code")
    else if "identifier" in table then Ok("identifier")
    else Err(MissingCodeColumn)
  }

  /** The texts of the non-missing cells, in order. */
  function PresentTexts(cells: seq<Cell>): (r: seq<string>)
    ensures |r| <= |cells|
    ensures forall t :: t in r <==> Present(t) in cells
    decreases |cells|
  {
    if |cells| == 0 then []
    else
      var init := cells[..|cells| - 1];
      var last := cells[|cells| - 1];
      var r := PresentTexts(init);
      assert cells == init + [last];
      if last.Present? then r + [last.text] else r
  }

  /** The documents built from one column: the distinct cells, the missing
      ones skipped, each text stripped. */
  function CellDocuments(cells: seq<Cell>): (docs: seq<IdentifierDoc>)
    ensures |docs| <= |cells|
    ensures forall i | 0 <= i < |docs| :: docs[i].kind == StudyType
  {
    Documents(StripAll(PresentTexts(Dedup(cells))))
  }

  function StripAll(xs: seq<string>): (r: seq<string>)
    ensures |r| == |xs| && forall i | 0 <= i < |xs| :: r[i] == Strip(xs[i])
  {
    seq(|xs|, i requires 0 <= i < |xs| => Strip(xs[i]))
  }

  /** `load_access_codes`: an error before any database access when there
      is no code column; otherwise the upload of the column's documents. */
  function LoadAccessCodes(table: Table, valid: seq<IdentifierDoc>, clear: bool)
    : (r: Result<seq<IdentifierDoc>, LoadError>)
    ensures r.Err? <==> "access_code" !in table && "identifier" !in table
    ensures r.Ok? ==> r.value == Upload(valid, clear, CellDocuments(table[SelectColumn(table).value]))
  {
    match SelectColumn(table)
    case Err(e) => Err(e)
    case Ok(column) => Ok(Upload(valid, clear, CellDocuments(table[column])))
  }

  lemma PresentTextsSnoc(cells: seq<Cell>, x: Cell)
    ensures PresentTexts(cells + [x]) == if x.Present? then PresentTexts(cells) + [x.text] else PresentTexts(cells)
  {
    assert (cells + [x])[..|cells|] == cells;
  }

  /** Skipping missing cells commutes with deduplication: the documents are
      the distinct present texts, in first-appearance order. */
  lemma {:induction false} PresentTextsDedup(cells: seq<Cell>)
    ensures PresentTexts(Dedup(cells)) == Dedup(PresentTexts(cells))
    decreases |cells|
  {
    if |cells| > 0 {
      var s := cells[..|cells| - 1];
      var x := cells[|cells| - 1];
      assert cells == s + [x];
      PresentTextsDedup(s);
      DedupSnoc(s, x);
      PresentTextsSnoc(s, x);
      if x !in s {
        PresentTextsSnoc(Dedup(s), x);
      }
      if x.Present? {
        DedupSnoc(PresentTexts(s), x.text);
      }
    }
  }

  /** The documents of a column: each distinct present raw value once,
      stripped and typed for the study. The order of the distinct values
      is their first appearance (`Seqs.DedupFirstAppearanceOrder`). */
  lemma CellDocumentsAreStrippedValues(cells: seq<Cell>)
    ensures var texts := Dedup(PresentTexts(cells));
            var docs := CellDocuments(cells);
            && |docs| == |texts|
            && (forall i | 0 <= i < |docs| ::
                  docs[i] == IdentifierDoc(Strip(texts[i]), StudyType))
  {
    PresentTextsDedup(cells);
  }

  /** Every present cell of the column has a document with its stripped
      text. */
  lemma CellDocumentsCoverColumn(cells: seq<Cell>)
    ensures var docs := CellDocuments(cells);
            forall i | 0 <= i < |cells| && cells[i].Present? ::
              exists k | 0 <= k < |docs| :: docs[k].identifier == Strip(cells[i].text)
  {
    PresentTextsDedup(cells);
    var texts := Dedup(PresentTexts(cells));
    var docs := CellDocuments(cells);
    forall i | 0 <= i < |cells| && cells[i].Present?
      ensures exists k | 0 <= k < |docs| :: docs[k].identifier == Strip(cells[i].text)
    {
      assert cells[i].text in PresentTexts(cells);
      assert cells[i].text in texts;
      var k :| 0 <= k < |texts| && texts[k] == cells[i].text;
      assert docs[k].identifier == Strip(texts[k]);
    }
  }

  lemma StripExamples()
    ensures Strip(" A1") == "A1" && Strip("A1") == "A1"
  {
    assert StripRight("A1") == "A1" by {
      assert "A1"[1] == '1';
    }
    assert " A1"[1..] == "A1";
  }

  lemma DedupExample()
    ensures Dedup([" A1", "A1", " A1"]) == [" A1", "A1"]
  {
    var q := [" A1", "A1", " A1"];
    assert q[..2][..1][..0] == [];
    assert q[..2][..1] == [" A1"];
    assert q[..2] == [" A1", "A1"];
    assert " A1" != "A1" by { assert |" A1"| != |"A1"|; }
    assert Dedup(q[..1]) == [" A1"];
    assert Dedup(q[..2]) == [" A1", "A1"];
  }

  lemma PresentTextsExample()
    ensures PresentTexts([Present(" A1"), Missing, Present("A1"), Present(" A1")]) == [" A1", "A1", " A1"]
  {
    var cells := [Present(" A1"), Missing, Present("A1"), Present(" A1")];
    assert cells[..1] == [Present(" A1")];
    assert cells[..2] == [Present(" A1"), Missing];
    assert cells[..3] == [Present(" A1"), Missing, Present("A1")];
    assert cells[..1][..0] == [];
    assert cells[..2][..1] == cells[..1];
    assert cells[..3][..2] == cells[..2];
    assert PresentTexts(cells[..1]) == [" A1"];
    assert PresentTexts(cells[..2]) == [" A1"];
    assert PresentTexts(cells[..3]) == [" A1", "A1"];
  }

  /** Deduplication happens before stripping: two differently padded
      copies of a code both become documents with the same identifier; a
      missing cell is skipped. */
  lemma PaddedDuplicatesBothLoaded()
    ensures CellDocuments([Present(" A1"), Missing, Present("A1"), Present(" A1")])
            == [IdentifierDoc("A1", StudyType), IdentifierDoc("A1", StudyType)]
  {
    var cells := [Present(" A1"), Missing, Present("A1"), Present(" A1")];
    PresentTextsDedup(cells);
    PresentTextsExample();
    DedupExample();
    StripExamples();
  }
}

=== FILE: seqs.dfy ===
/** Order-preserving deduplication, as `pandas.Series.unique()` performs
    it: every distinct value once, in the order of its first appearance. */
module Seqs {

  predicate Distinct<T(==)>(s: seq<T>) {
    forall i, j | 0 <= i < j < |s| :: s[i] != s[j]
  }

  /** The index of the first occurrence of `x` in `s`. */
  function FirstIndex<T(==)>(s: seq<T>, x: T): (r: nat)
    requires x in s
    ensures r < |s| && s[r] == x
    ensures forall k | 0 <= k < r :: s[k] != x
  {
    if s[0] == x then 0 else 1 + FirstIndex(s[1..], x)
  }

  function Dedup<T(==,!new)>(s: seq<T>): (r: seq<T>)
    ensures forall x :: x in r <==> x in s
    ensures Distinct(r)
    ensures |r| <= |s|
    decreases |s|
  {
    if |s| == 0 then []
    else
      var p := Dedup(s[..|s| - 1]);
      var x := s[|s| - 1];
      assert s == s[..|s| - 1] + [x];
      if x in p then p else p + [x]
  }

  /** Appending a value keeps it only when it is new. */
  lemma DedupSnoc<T(!new)>(s: seq<T>, x: T)
    ensures Dedup(s + [x]) == if x in s then Dedup(s) else Dedup(s) + [x]
  {
    var c := s + [x];
    assert c[..|c| - 1] == s;
    if x in s {
      var k :| 0 <= k < |s| && s[k] == x;
      assert s[k] in Dedup(s);
    } else {
      assert x !in Dedup(s);
    }
  }

  /** Appending keeps the first occurrence of anything already present. */
  lemma {:induction false} FirstIndexSnoc<T>(s: seq<T>, c: T, x: T)
    requires x in s + [c]
    ensures x in s ==> FirstIndex(s + [c], x) == FirstIndex(s, x)
    ensures x !in s ==> FirstIndex(s + [c], x) == |s|
  {
    var a := FirstIndex(s + [c], x);
    if x in s {
      var b := FirstIndex(s, x);
      assert (s + [c])[b] == x;
      assert a <= b;
      assert a < |s| && s[a] == x;
    } else {
      assert a == |s|;
    }
  }

  /** Every element of `r` occurs in `s`, and the elements of `r` are
      ordered by where they first occur in `s`. */
  predicate FirstAppearanceOrder<T(==)>(s: seq<T>, r: seq<T>) {
    && (forall i | 0 <= i < |r| :: r[i] in s)
    && (forall i, j | 0 <= i < j < |r| :: FirstIndex(s, r[i]) < FirstIndex(s, r[j]))
  }

  /** The deduplicated values appear in the order of their first
      appearance in the input. */
  lemma {:induction false} DedupFirstAppearanceOrder<T(!new)>(s: seq<T>)
    ensures FirstAppearanceOrder(s, Dedup(s))
    decreases |s|
  {
    if |s| > 0 {
      var s' := s[..|s| - 1];
      var x := s[|s| - 1];
      assert s == s' + [x];
      DedupFirstAppearanceOrder(s');
      var p := Dedup(s');
      var r := Dedup(s);
      assert x !in p ==> x !in s' by {
        if x in s' {
          var k :| 0 <= k < |s'| && s'[k] == x;
          assert s'[k] in p;
        }
      }
      assert r == if x in p then p else p + [x];
      forall i, j | 0 <= i < j < |r|
        ensures FirstIndex(s, r[i]) < FirstIndex(s, r[j])
      {
        assert r[i] == p[i] && p[i] in s';
        FirstIndexSnoc(s', x, r[i]);
        FirstIndexSnoc(s', x, r[j]);
        if j < |p| {
          assert r[j] == p[j] && p[j] in s';
        } else {
          assert r[j] == x && x !in s';
        }
      }
    }
  }
}

=== FILE: session.dfy ===
/** The per-visit session state of Home.py (`st.session_state`) and its
    pure transitions: default filling, clearing the conversation, prompt
    switching, revealing hints and validating the access code. */
module Session {
  import opened Wrappers
  import opened Text
  import opened Chat
  import Prompts
  import Hints
  import Identifiers

  const DefaultPrompt := "rabbit_v1"
  const Greeting := "Hi, I am Rabbit! What is your name?"
  const HintPrefix := "Let's read a hint: "

  /** One visit's state once `setup` has filled every key. */
  datatype State = State(
    currentPrompt: string,
    promptVersion: string,
    promptContent: string,
    chatHistory: seq<Message>,
    responseCounter: nat,
    finished: bool,
    conversationId: Option<string>,
    sessionId: Option<string>,
    userIdentifier: string,
    hintIndex: nat,
    recentHints: seq<string>)

  /** The same keys before `setup` ran: each one absent (`None`) or set. */
  datatype Stored = Stored(
    currentPrompt: Option<string>,
    promptVersion: Option<string>,
    promptContent: Option<string>,
    chatHistory: Option<seq<Message>>,
    responseCounter: Option<nat>,
    finished: Option<bool>,
    conversationId: Option<Option<string>>,
    sessionId: Option<Option<string>>,
    userIdentifier: Option<string>,
    hintIndex: Option<nat>,
    recentHints: Option<seq<string>>)

  function GetOr<T>(o: Option<T>, default: T): T {
    match o
    case Some(v) => v
    case None => default
  }

  /** `setup`: every absent key receives its default; the composed prompt
      text is recomputed when it is absent or was composed for another
      prompt. */
  function Setup(st: Stored, src: Prompts.Source): (s: State)
    ensures s.currentPrompt == GetOr(st.currentPrompt, DefaultPrompt)
    ensures s.promptVersion == s.currentPrompt
    ensures st.promptContent.Some? && st.promptVersion == Some(s.currentPrompt) ==>
              s.promptContent == st.promptContent.value
    ensures !(st.promptContent.Some? && st.promptVersion == Some(s.currentPrompt)) ==>
              s.promptContent == Prompts.PromptWithContext(src, s.currentPrompt)
    ensures s.chatHistory == GetOr(st.chatHistory, [])
    ensures s.responseCounter == GetOr(st.responseCounter, 0)
    ensures s.finished == GetOr(st.finished, false)
    ensures s.conversationId == GetOr(st.conversationId, None)
    ensures s.sessionId == GetOr(st.sessionId, None)
    ensures s.userIdentifier == GetOr(st.userIdentifier, "")
    ensures s.hintIndex == GetOr(st.hintIndex, 0)
    ensures s.recentHints == GetOr(st.recentHints, [])
  {
    var name := GetOr(st.currentPrompt, DefaultPrompt);
    var recompose := st.promptContent.None? || st.promptVersion != Some(name);
    State(
      currentPrompt := name,
      promptVersion := if recompose then name else st.promptVersion.value,
      promptContent := if recompose then Prompts.PromptWithContext(src, name) else st.promptContent.value,
      chatHistory := GetOr(st.chatHistory, []),
      responseCounter := GetOr(st.responseCounter, 0),
      finished := GetOr(st.finished, false),
      conversationId := GetOr(st.conversationId, None),
      sessionId := GetOr(st.sessionId, None),
      userIdentifier := GetOr(st.userIdentifier, ""),
      hintIndex := GetOr(st.hintIndex, 0),
      recentHints := GetOr(st.recentHints, []))
  }

  /** The session store after `setup`: every key present. */
  function Store(s: State): Stored {
    Stored(Some(s.currentPrompt), Some(s.promptVersion), Some(s.promptContent),
           Some(s.chatHistory), Some(s.responseCounter), Some(s.finished),
           Some(s.conversationId), Some(s.sessionId), Some(s.userIdentifier),
           Some(s.hintIndex), Some(s.recentHints))
  }

  /** `setup` is safe to call on every page render: a second call changes
      nothing, even if the prompt files changed in between. */
  lemma {:induction false} SetupIdempotent(st: Stored, src: Prompts.Source, src': Prompts.Source)
    ensures Setup(Store(Setup(st, src)), src') == Setup(st, src)
  {
  }

  /** The fields `clear_conversation` resets, at their reset values. */
  predicate IsReset(s: State) {
    && s.conversationId == None
    && s.chatHistory == []
    && s.responseCounter == 0
    && !s.finished
    && s.hintIndex == 0
    && s.recentHints == []
  }

  /** `clear_conversation`. */
  function Clear(s: State): (r: State)
    ensures IsReset(r)
    ensures r.userIdentifier == s.userIdentifier
    ensures r.currentPrompt == s.currentPrompt
    ensures r.promptVersion == s.promptVersion
    ensures r.promptContent == s.promptContent
    ensures r.sessionId == s.sessionId
  {
    s.(conversationId := None, chatHistory := [], responseCounter := 0,
       finished := false, hintIndex := 0, recentHints := [])
  }

  /** The reset is exact: what survives a clear depends only on the kept
      fields, never on the conversation being cleared, and clearing twice
      is clearing once. */
  lemma {:induction false} ClearForgetsConversation(s: State, t: State)
    requires s.userIdentifier == t.userIdentifier && s.currentPrompt == t.currentPrompt
    requires s.promptVersion == t.promptVersion && s.promptContent == t.promptContent
    requires s.sessionId == t.sessionId
    ensures Clear(s) == Clear(t)
    ensures Clear(Clear(s)) == Clear(s)
  {
  }

  /** `change_prompt_and_reset`. */
  function ChangePromptAndReset(s: State, src: Prompts.Source, name: string): (r: State)
    ensures s.currentPrompt == name ==> r == s
    ensures s.currentPrompt != name ==>
              && r.currentPrompt == name
              && r.promptVersion == name
              && r.promptContent == Prompts.PromptWithContext(src, name)
              && IsReset(r)
              && r.userIdentifier == s.userIdentifier
              && r.sessionId == s.sessionId
  {
    if s.currentPrompt == name then s
    else Clear(s.(currentPrompt := name,
                  promptContent := Prompts.PromptWithContext(src, name),
                  promptVersion := name))
  }

  /** Selecting the same prompt again is a no-op, and a switch is the
      clear of the session with only the prompt fields replaced. */
  lemma {:induction false} ChangePromptIdempotent(s: State, src: Prompts.Source, name: string)
    ensures var r := ChangePromptAndReset(s, src, name);
            ChangePromptAndReset(r, src, name) == r
    ensures s.currentPrompt != name ==>
              ChangePromptAndReset(s, src, name)
                == Clear(s).(currentPrompt := name, promptVersion := name,
                             promptContent := Prompts.PromptWithContext(src, name))
  {
  }

  /** The greeting `chat_page` adds to an empty history before rendering. */
  function EnsureGreeting(s: State): (r: State)
    ensures s.chatHistory == [] ==> r.chatHistory == [Message(Assistant, Greeting)]
    ensures s.chatHistory != [] ==> r == s
    ensures r == s.(chatHistory := r.chatHistory)
  {
    if s.chatHistory == [] then s.(chatHistory := [Message(Assistant, Greeting)]) else s
  }

  /** `show_next_hint`, reading the solution file as `file`. */
  function ShowNextHint(s: State, file: Option<seq<string>>): (r: State)
    ensures r.hintIndex >= s.hintIndex
    ensures Hints.NextHint(file, s.hintIndex).NoHint? ==> r == s
    ensures Hints.NextHint(file, s.hintIndex).Hint? ==>
              var msg := HintPrefix + Hints.NextHint(file, s.hintIndex).text;
              && r.hintIndex > s.hintIndex
              && r.hintIndex == Hints.NextHint(file, s.hintIndex).line + 1
              && r.chatHistory == s.chatHistory + [Message(Assistant, msg)]
              && r.recentHints == s.recentHints + [msg]
              && r == s.(chatHistory := r.chatHistory, recentHints := r.recentHints, hintIndex := r.hintIndex)
  {
    match Hints.NextHint(file, s.hintIndex)
    case NoHint => s
    case Hint(hint, line) =>
      var msg := HintPrefix + hint;
      s.(chatHistory := s.chatHistory + [Message(Assistant, msg)],
         recentHints := s.recentHints + [msg],
         hintIndex := line + 1)
  }

  /** `n` presses of the hint button. */
  function ShowHints(s: State, file: Option<seq<string>>, n: nat): State
    decreases n
  {
    if n == 0 then s else ShowHints(ShowNextHint(s, file), file, n - 1)
  }

  function Prefixed(hints: seq<string>): (r: seq<string>)
    ensures |r| == |hints|
    ensures forall i | 0 <= i < |hints| :: r[i] == HintPrefix + hints[i]
  {
    seq(|hints|, i requires 0 <= i < |hints| => HintPrefix + hints[i])
  }

  function AsAssistant(texts: seq<string>): (r: seq<Message>)
    ensures |r| == |texts|
    ensures forall i | 0 <= i < |texts| :: r[i] == Message(Assistant, texts[i])
  {
    seq(|texts|, i requires 0 <= i < |texts| => Message(Assistant, texts[i]))
  }

  /** One hint request consumes the first remaining non-blank line. */
  lemma {:induction false} ShowNextHintConsumesFirst(s: State, lines: seq<string>)
    ensures var hs := Hints.NonBlankFrom(lines, s.hintIndex);
            var s1 := ShowNextHint(s, Some(lines));
            && (hs == [] ==> s1 == s)
            && (hs != [] ==>
                  && s1.recentHints == s.recentHints + [HintPrefix + hs[0]]
                  && s1.chatHistory == s.chatHistory + [Message(Assistant, HintPrefix + hs[0])]
                  && Hints.NonBlankFrom(lines, s1.hintIndex) == hs[1..]
                  && s1.hintIndex > s.hintIndex
                  && s1 == s.(chatHistory := s1.chatHistory, recentHints := s1.recentHints, hintIndex := s1.hintIndex))
  {
    var hs := Hints.NonBlankFrom(lines, s.hintIndex);
    Hints.ScanTakesFirstNonBlank(lines, s.hintIndex);
    assert Hints.NextHint(Some(lines), s.hintIndex) == Hints.Scan(lines, s.hintIndex);
    match Hints.Scan(lines, s.hintIndex)
    case NoHint =>
    case Hint(t, j) =>
      var rest := Hints.NonBlankFrom(lines, j + 1);
      assert hs == [t] + rest;
      assert hs[0] == t && hs[1..] == rest;
  }

  /** `r` is `s` with the hints `xs` revealed: each appended, prefixed,
      to the recent hints and as an assistant message to the history;
      only the hint cursor may differ otherwise. */
  predicate Revealed(s: State, r: State, xs: seq<string>) {
    && r.recentHints == s.recentHints + Prefixed(xs)
    && r.chatHistory == s.chatHistory + AsAssistant(Prefixed(xs))
    && r.hintIndex >= s.hintIndex
    && r == s.(chatHistory := r.chatHistory, recentHints := r.recentHints, hintIndex := r.hintIndex)
  }

  lemma {:induction false} RevealedCons(s: State, s1: State, r: State, t: string, xs: seq<string>)
    requires Revealed(s, s1, [t]) && Revealed(s1, r, xs)
    ensures Revealed(s, r, [t] + xs)
  {
    PrefixedAppend([t], xs);
    AsAssistantAppend(Prefixed([t]), Prefixed(xs));
  }

  lemma PrefixedAppend(a: seq<string>, b: seq<string>)
    ensures Prefixed(a + b) == Prefixed(a) + Prefixed(b)
  {
    assert forall i | 0 <= i < |a + b| :: Prefixed(a + b)[i] == (Prefixed(a) + Prefixed(b))[i];
  }

  lemma AsAssistantAppend(a: seq<string>, b: seq<string>)
    ensures AsAssistant(a + b) == AsAssistant(a) + AsAssistant(b)
  {
    assert forall i | 0 <= i < |a + b| :: AsAssistant(a + b)[i] == (AsAssistant(a) + AsAssistant(b))[i];
  }

  /** Repeated hint requests reveal the non-blank lines of the solution
      file from the cursor on, in file order, each exactly once; once they
      are exhausted further requests change nothing. */
  lemma {:induction false} ShowHintsRevealsNonBlankLines(s: State, lines: seq<string>, n: nat)
    ensures var hs := Hints.NonBlankFrom(lines, s.hintIndex);
            Revealed(s, ShowHints(s, Some(lines), n), hs[..if n < |hs| then n else |hs|])
    decreases n
  {
    var hs := Hints.NonBlankFrom(lines, s.hintIndex);
    if n > 0 {
      var s1 := ShowNextHint(s, Some(lines));
      ShowHintsRevealsNonBlankLines(s1, lines, n - 1);
      ShowHintsStep(s, s1, lines, n);
    } else {
      assert hs[..0] == [] && Prefixed([]) == [];
    }
  }

  /** The inductive step: one request, then `n - 1` more from there. */
  lemma {:induction false} ShowHintsStep(s: State, s1: State, lines: seq<string>, n: nat)
    requires n > 0 && s1 == ShowNextHint(s, Some(lines))
    requires var hs1 := Hints.NonBlankFrom(lines, s1.hintIndex);
             Revealed(s1, ShowHints(s1, Some(lines), n - 1), hs1[..if n - 1 < |hs1| then n - 1 else |hs1|])
    ensures var hs := Hints.NonBlankFrom(lines, s.hintIndex);
            Revealed(s, ShowHints(s, Some(lines), n), hs[..if n < |hs| then n else |hs|])
  {
    var hs := Hints.NonBlankFrom(lines, s.hintIndex);
    var r := ShowHints(s1, Some(lines), n - 1);
    assert ShowHints(s, Some(lines), n) == r;
    ShowNextHintConsumesFirst(s, lines);
    if hs != [] {
      var m := if n < |hs| then n else |hs|;
      assert hs[..m] == [hs[0]] + hs[1..][..m - 1];
      RevealedOne(s, s1, hs[0]);
      RevealedCons(s, s1, r, hs[0], hs[1..][..m - 1]);
    } else {
      assert Prefixed([]) == [];
    }
  }

  lemma RevealedOne(s: State, s1: State, t: string)
    requires s1.recentHints == s.recentHints + [HintPrefix + t]
    requires s1.chatHistory == s.chatHistory + [Message(Assistant, HintPrefix + t)]
    requires s1.hintIndex > s.hintIndex
    requires s1 == s.(chatHistory := s1.chatHistory, recentHints := s1.recentHints, hintIndex := s1.hintIndex)
    ensures Revealed(s, s1, [t])
  {
    assert Prefixed([t]) == [HintPrefix + t];
  }

  /** The login form: an empty entry changes nothing; a known code is
      stored as typed; an unknown one clears the stored identifier. */
  function Login(s: State, valid: seq<Identifiers.IdentifierDoc>, typed: string): (r: State)
    ensures r == s.(userIdentifier := r.userIdentifier)
    ensures typed == "" ==> r == s
    ensures typed != "" ==> (r.userIdentifier == typed <==> Identifiers.CheckIdentifier(valid, typed))
    ensures typed != "" && !Identifiers.CheckIdentifier(valid, typed) ==> r.userIdentifier == ""
  {
    if typed == "" then s
    else if Identifiers.CheckIdentifier(valid, typed) then s.(userIdentifier := typed)
    else s.(userIdentifier := "")
  }

  /** `is_identifier_valid`: the stored identifier, stripped, is non-empty
      and known. */
  function IsIdentifierValid(s: State, valid: seq<Identifiers.IdentifierDoc>): (b: bool)
    ensures b ==> !AllSpace(s.userIdentifier)
    ensures b <==> Strip(s.userIdentifier) != "" && Identifiers.CheckIdentifier(valid, Strip(s.userIdentifier))
  {
    var id := Strip(s.userIdentifier);
    StripBounds(s.userIdentifier);
    id != "" && Identifiers.CheckIdentifier(valid, id)
  }

  /** A known code typed without surrounding whitespace opens the chat
      page; one that is not known never does. */
  lemma {:induction false} LoginThenValid(s: State, valid: seq<Identifiers.IdentifierDoc>, typed: string)
    requires typed != "" && Strip(typed) == typed
    ensures IsIdentifierValid(Login(s, valid, typed), valid) <==> Identifiers.CheckIdentifier(valid, typed)
  {
    if !Identifiers.CheckIdentifier(valid, typed) {
      assert Login(s, valid, typed).userIdentifier == "";
      assert AllSpace("");
    }
  }
}

=== FILE: text.dfy ===
/** Python string operations the application relies on: `str.isspace`,
    the no-argument `str.strip`, `str.join`, `startswith`/`endswith` and
    the position of the last occurrence of a character. */
module Text {
  import opened Wrappers

  /** One character of Python's `str.isspace()` set: the characters the
      no-argument `strip()` removes from either end. */
  predicate IsSpace(c: char) {
    || ('\t' <= c <= '\r')            // \t \n \v \f \r
    || ('\U{1C}' <= c <= '\U{1F}')    // file, group, record and unit separators
    || c == ' '
    || c == '\U{85}' || c == '\U{A0}' || c == '\U{1680}'
    || ('\U{2000}' <= c <= '\U{200A}')
    || c == '\U{2028}' || c == '\U{2029}' || c == '\U{202F}'
    || c == '\U{205F}' || c == '\U{3000}'
  }

  predicate AllSpace(s: string) {
    forall k | 0 <= k < |s| :: IsSpace(s[k])
  }

  /** `s.lstrip()`: the suffix left after dropping leading whitespace. */
  function StripLeft(s: string): (r: string)
    ensures |r| <= |s| && r == s[|s| - |r|..]
    ensures AllSpace(s[..|s| - |r|])
    ensures r == [] || !IsSpace(r[0])
    decreases |s|
  {
    if |s| > 0 && IsSpace(s[0]) then
      var r := StripLeft(s[1..]);
      assert s[..|s| - |r|] == [s[0]] + s[1..][..|s| - 1 - |r|];
      r
    else s
  }

  /** `s.rstrip()`: the prefix left after dropping trailing whitespace. */
  function StripRight(s: string): (r: string)
    ensures |r| <= |s| && r == s[..|r|]
    ensures AllSpace(s[|r|..])
    ensures r == [] || !IsSpace(r[|r| - 1])
    decreases |s|
  {
    if |s| > 0 && IsSpace(s[|s| - 1]) then
      var r := StripRight(s[..|s| - 1]);
      assert s[|r|..] == s[..|s| - 1][|r|..] + [s[|s| - 1]];
      r
    else s
  }

  /** `s.strip()`: drops leading whitespace, then trailing whitespace. */
  function Strip(s: string): string
    decreases |s|
  {
    if |s| > 0 && IsSpace(s[0]) then Strip(s[1..]) else StripRight(s)
  }

  /** `strip()` is empty exactly when `s` is all whitespace; otherwise it
      starts and ends with non-whitespace. */
  lemma {:induction false} StripBounds(s: string)
    ensures Strip(s) == [] <==> AllSpace(s)
    ensures Strip(s) != [] ==> !IsSpace(Strip(s)[0]) && !IsSpace(Strip(s)[|Strip(s)| - 1])
    decreases |s|
  {
    if |s| > 0 && IsSpace(s[0]) {
      StripBounds(s[1..]);
      assert AllSpace(s) <==> AllSpace(s[1..]) by {
        if AllSpace(s[1..]) {
          forall k | 0 < k < |s| ensures IsSpace(s[k]) { assert s[k] == s[1..][k - 1]; }
        }
      }
    } else {
      var r := StripRight(s);
      assert r == [] ==> s[|r|..] == s;
    }
  }

  /** `strip()` is `rstrip()` after `lstrip()`. */
  lemma {:induction false} StripIsLeftThenRight(s: string)
    ensures Strip(s) == StripRight(StripLeft(s))
    decreases |s|
  {
    if |s| > 0 && IsSpace(s[0]) {
      StripIsLeftThenRight(s[1..]);
    }
  }

  /** `r` is the slice of `s` at `i`, with only whitespace before and
      after it. */
  predicate SpaceAround(s: string, r: string, i: nat) {
    && i + |r| <= |s|
    && r == s[i..i + |r|]
    && AllSpace(s[..i])
    && AllSpace(s[i + |r|..])
  }

  /** So the result of `strip()` is a slice of `s` with only whitespace
      before and after it. */
  lemma {:induction false} StripIsSlice(s: string)
    ensures exists i: nat :: SpaceAround(s, Strip(s), i)
    decreases |s|
  {
    if |s| > 0 && IsSpace(s[0]) {
      var r := Strip(s[1..]);
      StripIsSlice(s[1..]);
      var i: nat :| SpaceAround(s[1..], r, i);
      SliceAfterSpace(s, i, r);
      assert SpaceAround(s, Strip(s), i + 1);
    } else {
      RightIsSlice(s);
      assert SpaceAround(s, Strip(s), 0);
    }
  }

  /** A whitespace character in front moves the slice one place on. */
  lemma SliceAfterSpace(s: string, i: nat, r: string)
    requires |s| > 0 && IsSpace(s[0]) && SpaceAround(s[1..], r, i)
    ensures SpaceAround(s, r, i + 1)
  {
    assert s[1..][i + |r|..] == s[i + 1 + |r|..];
    forall k | 1 <= k < i + 1 ensures IsSpace(s[k]) {
      assert s[k] == s[1..][..i][k - 1];
    }
  }

  /** `rstrip()` is the slice at 0 with whitespace after it. */
  lemma RightIsSlice(s: string)
    ensures SpaceAround(s, StripRight(s), 0)
  {
    var r := StripRight(s);
    assert s[0..0 + |r|] == s[..|r|];
  }

  /** Leading whitespace does not change the result of `strip()`. */
  lemma {:induction false} StripDropsLeadingSpace(w: string, t: string)
    requires AllSpace(w)
    ensures Strip(w + t) == Strip(t)
    decreases |w|
  {
    if |w| == 0 {
      assert w + t == t;
    } else {
      assert (w + t)[0] == w[0];
      assert (w + t)[1..] == w[1..] + t;
      StripDropsLeadingSpace(w[1..], t);
    }
  }

  /** Trailing whitespace is only looked for after the last non-space
      character: a non-space character in `b` shields `a` from `rstrip()`. */
  lemma {:induction false} StripRightKeepsPrefix(a: string, b: string)
    requires !AllSpace(b)
    ensures StripRight(a + b) == a + StripRight(b)
    decreases |b|
  {
    var n := |b|;
    if IsSpace(b[n - 1]) {
      assert (a + b)[..|a + b| - 1] == a + b[..n - 1];
      assert !AllSpace(b[..n - 1]) by {
        var k :| 0 <= k < n && !IsSpace(b[k]);
        assert k < n - 1;
        assert b[..n - 1][k] == b[k];
      }
      StripRightKeepsPrefix(a, b[..n - 1]);
    } else {
      assert (a + b)[|a + b| - 1] == b[n - 1];
    }
  }

  function Join(xs: seq<string>, sep: string): (r: string)
    ensures |xs| == 0 ==> r == []
    ensures |xs| == 1 ==> r == xs[0]
    ensures |xs| > 0 ==> StartsWith(r, xs[0])
  {
    if |xs| == 0 then []
    else if |xs| == 1 then xs[0]
    else xs[0] + sep + Join(xs[1..], sep)
  }

  predicate StartsWith(s: string, p: string) {
    |p| <= |s| && s[..|p|] == p
  }

  predicate EndsWith(s: string, p: string) {
    |p| <= |s| && s[|s| - |p|..] == p
  }

  /** The position `str.rfind(c)` reports, or `None` for -1. */
  function LastIndexOf(s: string, c: char): (r: Option<nat>)
    ensures r.None? <==> c !in s
    ensures r.Some? ==> r.value < |s| && s[r.value] == c
                        && forall k | r.value < k < |s| :: s[k] != c
    decreases |s|
  {
    if |s| == 0 then None
    else if s[|s| - 1] == c then Some(|s| - 1)
    else
      var r := LastIndexOf(s[..|s| - 1], c);
      assert s == s[..|s| - 1] + [s[|s| - 1]];
      r
  }

  /** Python truthiness of an optional string: `None` and `""` are false. */
  predicate Truthy(o: Option<string>) {
    o.Some? && o.value != ""
  }
}

=== FILE: transcripts.dfy ===
/** The `transcripts` collection of utils/mongodb.py: one document per
    session key, written message by message, marked completed at the end
    of a study session, and re-keyed from one session key to another by
    `update_session_key`, which no page calls.
    The collection is the sequence of its documents in insertion order;
    `find_one` returns the first match. */
module Transcripts {
  import opened Wrappers
  import opened Text
  import opened Chat
  import Identifiers

  /** The only `conversation_type` the logging functions write. It has the
      same value as the `type` tag of access-code documents
      (`Identifiers.StudyType`), but is a different field. */
  const StudyConversation := "rabbit_study"

  /** One entry of a transcript's `messages`: the message and its
      `message_index` (the timestamp is not modelled). */
  datatype Entry = Entry(message: Message, index: Option<int>)

  datatype Transcript = Transcript(
    id: string,
    sessionKey: string,
    conversationType: string,
    messages: seq<Entry>,
    messageCount: int,
    completed: bool,
    identifier: string,
    conversationId: Option<string>,
    promptVersion: string)

  type Collection = seq<Transcript>

  /** What a `find_one` filter matches on. */
  datatype Key = Key(sessionKey: string, conversationType: string)

  function KeyOf(t: Transcript): Key {
    Key(t.sessionKey, t.conversationType)
  }

  /** The session values the logging functions read. */
  datatype Context = Context(
    userIdentifier: string,
    conversationId: Option<string>,
    sessionId: Option<string>,
    currentPrompt: string)

  /** The collection after a write, and the id the function returns. */
  datatype Write = Write(coll: Collection, id: Option<string>)

  /** At most one document per key, and every count agrees with its
      messages. */
  predicate Wf(c: Collection) {
    && (forall i, j | 0 <= i < |c| && 0 <= j < |c| && i != j :: KeyOf(c[i]) != KeyOf(c[j]))
    && (forall i | 0 <= i < |c| :: c[i].messageCount == |c[i].messages|)
  }

  /** Python's `str()` of an optional string in an f-string. */
  function PyStr(o: Option<string>): string {
    if o.Some? then o.value else "None"
  }

  /** The id the session key is built from: the conversation id when it is
      truthy, the session id otherwise. */
  function KeyedId(ctx: Context): string {
    if Truthy(ctx.conversationId) then ctx.conversationId.value else PyStr(ctx.sessionId)
  }

  /** The session key `<user>_<id>`. */
  function SessionKey(ctx: Context): string {
    ctx.userIdentifier + "_" + KeyedId(ctx)
  }

  /** The key starts with the user's identifier and an underscore, and
      the rest of it is the keyed id. */
  lemma SessionKeyShape(ctx: Context)
    ensures StartsWith(SessionKey(ctx), ctx.userIdentifier + "_")
    ensures SessionKey(ctx)[|ctx.userIdentifier| + 1..] == KeyedId(ctx)
  {
  }

  /** For one user, the session key determines the id it was built from. */
  lemma SessionKeyDeterminesId(a: Context, b: Context)
    requires a.userIdentifier == b.userIdentifier
    ensures SessionKey(a) == SessionKey(b) <==> KeyedId(a) == KeyedId(b)
  {
    var n := |a.userIdentifier| + 1;
    if SessionKey(a) == SessionKey(b) {
      assert KeyedId(a) == SessionKey(a)[n..];
      assert KeyedId(b) == SessionKey(b)[n..];
    }
  }

  /** `find_one`: the first document with the key. */
  function Find(c: Collection, k: Key): (r: Option<nat>)
    ensures r.Some? ==> r.value < |c| && KeyOf(c[r.value]) == k
    decreases |c|
  {
    if |c| == 0 then None
    else if KeyOf(c[0]) == k then Some(0)
    else
      var r := Find(c[1..], k);
      if r.Some? then Some(r.value + 1) else None
  }

  /** Nothing is found exactly when no document has the key, and what is
      found is the first document with it. */
  lemma {:induction false} FindSpec(c: Collection, k: Key)
    ensures Find(c, k).None? <==> forall i | 0 <= i < |c| :: KeyOf(c[i]) != k
    ensures Find(c, k).Some? ==> forall i | 0 <= i < Find(c, k).value :: KeyOf(c[i]) != k
    decreases |c|
  {
    if |c| > 0 && KeyOf(c[0]) != k {
      FindSpec(c[1..], k);
      assert forall i | 1 <= i < |c| :: c[i] == c[1..][i - 1];
    }
  }

  /** The document `find_one` returns, if any. */
  function Lookup(c: Collection, k: Key): Option<Transcript> {
    match Find(c, k)
    case Some(i) => Some(c[i])
    case None => None
  }

  /** A match with none before it is the one `find_one` returns. */
  lemma FindFirst(c: Collection, k: Key, i: nat)
    requires i < |c| && KeyOf(c[i]) == k
    requires forall j | 0 <= j < i :: KeyOf(c[j]) != k
    ensures Find(c, k) == Some(i)
  {
    FindSpec(c, k);
  }

  /** Under `Wf` the document found is the only one with its key. */
  lemma OnlyDocumentWithKey(c: Collection, k: Key, i: int)
    requires Wf(c) && Lookup(c, k).Some? && 0 <= i < |c| && KeyOf(c[i]) == k
    ensures c[i] == Lookup(c, k).value
  {
  }

  function RemoveAt(c: Collection, i: nat): (r: Collection)
    requires i < |c|
    ensures |r| == |c| - 1
    ensures forall j | 0 <= j < i :: r[j] == c[j]
    ensures forall j | i <= j < |r| :: r[j] == c[j + 1]
  {
    c[..i] + c[i + 1..]
  }

  lemma {:induction false} LookupUpdateOther(c: Collection, i: nat, t: Transcript, k: Key)
    requires i < |c| && KeyOf(c[i]) != k && KeyOf(t) != k
    ensures Lookup(c[i := t], k) == Lookup(c, k)
  {
    var c' := c[i := t];
    assert forall j | 0 <= j < |c| :: (KeyOf(c'[j]) == k <==> KeyOf(c[j]) == k);
    FindSpec(c, k);
    FindSpec(c', k);
    var r, r' := Find(c, k), Find(c', k);
    if r.Some? && r'.Some? {
      assert r.value == r'.value;
    }
  }

  lemma {:induction false} LookupUpdateFound(c: Collection, i: nat, t: Transcript, k: Key)
    requires Find(c, k) == Some(i) && KeyOf(t) == k
    ensures Lookup(c[i := t], k) == Some(t)
  {
    FindSpec(c, k);
    var c' := c[i := t];
    forall j | 0 <= j < i ensures KeyOf(c'[j]) != k {
      assert c'[j] == c[j];
    }
    FindFirst(c', k, i);
  }

  lemma {:induction false} LookupRemoveOther(c: Collection, i: nat, k: Key)
    requires i < |c| && KeyOf(c[i]) != k
    ensures Lookup(RemoveAt(c, i), k) == Lookup(c, k)
  {
    var c' := RemoveAt(c, i);
    FindSpec(c, k);
    FindSpec(c', k);
    var r, r' := Find(c, k), Find(c', k);
    if r.Some? {
      var m := r.value;
      if m < i {
        assert KeyOf(c'[m]) == k;
        FindFirst(c', k, m);
      } else {
        assert m > i;
        assert KeyOf(c'[m - 1]) == k;
        assert forall j | 0 <= j < m - 1 :: KeyOf(c'[j]) != k by {
          forall j | 0 <= j < m - 1 ensures KeyOf(c'[j]) != k {
            if j >= i { assert c'[j] == c[j + 1]; }
          }
        }
        FindFirst(c', k, m - 1);
      }
    } else {
      assert forall j | 0 <= j < |c'| :: KeyOf(c'[j]) != k by {
        forall j | 0 <= j < |c'| ensures KeyOf(c'[j]) != k {
          if j >= i { assert c'[j] == c[j + 1]; }
        }
      }
    }
  }

  /** Removing the only document with its key leaves none. */
  lemma {:induction false} LookupRemoveOnly(c: Collection, i: nat)
    requires i < |c|
    requires forall a | 0 <= a < |c| && a != i :: KeyOf(c[a]) != KeyOf(c[i])
    ensures Lookup(RemoveAt(c, i), KeyOf(c[i])).None?
  {
    var c' := RemoveAt(c, i);
    forall j | 0 <= j < |c'| ensures KeyOf(c'[j]) != KeyOf(c[i]) {
      if j >= i { assert c'[j] == c[j + 1]; }
    }
    FindSpec(c', KeyOf(c[i]));
  }

  lemma {:induction false} LookupAppend(c: Collection, t: Transcript, k: Key)
    ensures Lookup(c + [t], k) ==
              if Lookup(c, k).Some? then Lookup(c, k)
              else if KeyOf(t) == k then Some(t) else None
  {
    var c' := c + [t];
    assert forall j | 0 <= j < |c| :: c'[j] == c[j];
    FindSpec(c, k);
    FindSpec(c', k);
    var r := Find(c, k);
    if r.Some? {
      assert Find(c', k) == r;
    } else if KeyOf(t) == k {
      assert c'[|c|] == t;
      FindFirst(c', k, |c|);
    }
  }

  lemma {:induction false} WfRemove(c: Collection, i: nat)
    requires Wf(c) && i < |c|
    ensures Wf(RemoveAt(c, i))
  {
    var c' := RemoveAt(c, i);
    forall a, b | 0 <= a < |c'| && 0 <= b < |c'| && a != b ensures KeyOf(c'[a]) != KeyOf(c'[b]) {
      var a' := if a < i then a else a + 1;
      var b' := if b < i then b else b + 1;
      assert c'[a] == c[a'] && c'[b] == c[b'];
    }
    forall a | 0 <= a < |c'| ensures c'[a].messageCount == |c'[a].messages| {
      var a' := if a < i then a else a + 1;
      assert c'[a] == c[a'];
    }
  }

  /** A document whose key is unchanged, or new to the collection, may
      replace another. */
  lemma {:induction false} WfUpdate(c: Collection, i: nat, t: Transcript)
    requires Wf(c) && i < |c| && t.messageCount == |t.messages|
    requires KeyOf(t) == KeyOf(c[i]) || Lookup(c, KeyOf(t)).None?
    ensures Wf(c[i := t])
  {
    FindSpec(c, KeyOf(t));
  }

  lemma {:induction false} WfAppend(c: Collection, t: Transcript)
    requires Wf(c) && t.messageCount == |t.messages| && Lookup(c, KeyOf(t)).None?
    ensures Wf(c + [t])
  {
    FindSpec(c, KeyOf(t));
    var c' := c + [t];
    assert forall j | 0 <= j < |c| :: c'[j] == c[j];
  }

  /** `log_message`: append to the session's document, or create it. Any
      conversation type other than the study's is ignored. */
  function LogMessage(c: Collection, ctx: Context, conversationType: string, m: Message,
                      index: Option<int>, freshId: string): (w: Write)
    ensures w.id.Some? <==> conversationType == StudyConversation
    ensures |c| <= |w.coll| <= |c| + 1
  {
    if conversationType != StudyConversation then Write(c, None)
    else
      var k := Key(SessionKey(ctx), StudyConversation);
      var e := Entry(m, index);
      match Find(c, k)
      case Some(i) =>
        Write(c[i := c[i].(messages := c[i].messages + [e], messageCount := c[i].messageCount + 1)],
              Some(c[i].id))
      case None =>
        Write(c + [Transcript(freshId, k.sessionKey, k.conversationType, [e], 1, false,
                              ctx.userIdentifier, ctx.conversationId, ctx.currentPrompt)],
              Some(freshId))
  }

  function StudyKey(ctx: Context): Key {
    Key(SessionKey(ctx), StudyConversation)
  }

  /** Only the study's conversation type is logged. */
  lemma LogMessageIgnoresOtherTypes(c: Collection, ctx: Context, ty: string, m: Message,
                                    index: Option<int>, freshId: string)
    requires ty != StudyConversation
    ensures LogMessage(c, ctx, ty, m, index, freshId) == Write(c, None)
  {
  }

  /** On an existing key: the message goes at the end, the count rises by
      one, the existing id is returned and no other key's document
      changes. */
  lemma {:induction false} LogMessageAppends(c: Collection, ctx: Context, m: Message,
                                             index: Option<int>, freshId: string, other: Key)
    requires Lookup(c, StudyKey(ctx)).Some?
    requires other != StudyKey(ctx)
    ensures var t := Lookup(c, StudyKey(ctx)).value;
            var w := LogMessage(c, ctx, StudyConversation, m, index, freshId);
            && |w.coll| == |c|
            && w.id == Some(t.id)
            && Lookup(w.coll, StudyKey(ctx))
               == Some(t.(messages := t.messages + [Entry(m, index)], messageCount := t.messageCount + 1))
            && Lookup(w.coll, other) == Lookup(c, other)
  {
    var k := StudyKey(ctx);
    var i := Find(c, k).value;
    var t := c[i].(messages := c[i].messages + [Entry(m, index)], messageCount := c[i].messageCount + 1);
    LookupUpdateFound(c, i, t, k);
    LookupUpdateOther(c, i, t, other);
  }

  /** On an absent key: one new document holding just this message, with
      a count of one; no other key's document changes. */
  lemma {:induction false} LogMessageCreates(c: Collection, ctx: Context, m: Message,
                                             index: Option<int>, freshId: string, other: Key)
    requires Lookup(c, StudyKey(ctx)).None?
    requires other != StudyKey(ctx)
    ensures var w := LogMessage(c, ctx, StudyConversation, m, index, freshId);
            && |w.coll| == |c| + 1
            && w.id == Some(freshId)
            && Lookup(w.coll, StudyKey(ctx))
               == Some(Transcript(freshId, SessionKey(ctx), StudyConversation, [Entry(m, index)], 1, false,
                                  ctx.userIdentifier, ctx.conversationId, ctx.currentPrompt))
            && Lookup(w.coll, other) == Lookup(c, other)
  {
    var t := Transcript(freshId, SessionKey(ctx), StudyConversation, [Entry(m, index)], 1, false,
                        ctx.userIdentifier, ctx.conversationId, ctx.currentPrompt);
    LookupAppend(c, t, StudyKey(ctx));
    LookupAppend(c, t, other);
  }

  lemma {:induction false} LogMessagePreservesWf(c: Collection, ctx: Context, ty: string, m: Message,
                                                 index: Option<int>, freshId: string)
    requires Wf(c)
    ensures Wf(LogMessage(c, ctx, ty, m, index, freshId).coll)
  {
    if ty == StudyConversation {
      var k := StudyKey(ctx);
      var e := Entry(m, index);
      match Find(c, k)
      case Some(i) =>
        WfUpdate(c, i, c[i].(messages := c[i].messages + [e], messageCount := c[i].messageCount + 1));
      case None =>
        WfAppend(c, Transcript(freshId, k.sessionKey, k.conversationType, [e], 1, false,
                               ctx.userIdentifier, ctx.conversationId, ctx.currentPrompt));
    }
  }

  /** `log_message` called once per entry, in order, for one session. */
  function LogAll(c: Collection, ctx: Context, es: seq<Entry>, freshId: string): Collection
    decreases |es|
  {
    if |es| == 0 then c
    else
      var e := es[|es| - 1];
      LogMessage(LogAll(c, ctx, es[..|es| - 1], freshId), ctx, StudyConversation, e.message, e.index, freshId).coll
  }

  /** Starting from a key with no document, N calls leave one document
      for it, holding the N entries in order with a count of N. */
  lemma {:induction false} LogAllOneDocument(c: Collection, ctx: Context, es: seq<Entry>, freshId: string)
    requires Lookup(c, StudyKey(ctx)).None? && |es| > 0
    ensures var t := Lookup(LogAll(c, ctx, es, freshId), StudyKey(ctx));
            && t.Some?
            && t.value.messages == es
            && t.value.messageCount == |es|
            && t.value.id == freshId
    decreases |es|
  {
    var init := es[..|es| - 1];
    var e := es[|es| - 1];
    assert es == init + [e];
    var p := LogAll(c, ctx, init, freshId);
    assert LogAll(c, ctx, es, freshId)
           == LogMessage(p, ctx, StudyConversation, e.message, e.index, freshId).coll;
    if |init| == 0 {
      assert p == c;
      LogMessageCreates(c, ctx, e.message, e.index, freshId, Key(SessionKey(ctx), ""));
    } else {
      LogAllOneDocument(c, ctx, init, freshId);
      LogMessageAppends(p, ctx, e.message, e.index, freshId, Key(SessionKey(ctx), ""));
    }
  }

  /** So that one document is the only one with its key. */
  lemma {:induction false} LogAllPreservesWf(c: Collection, ctx: Context, es: seq<Entry>, freshId: string)
    requires Wf(c)
    ensures Wf(LogAll(c, ctx, es, freshId))
    decreases |es|
  {
    if |es| > 0 {
      var e := es[|es| - 1];
      LogAllPreservesWf(c, ctx, es[..|es| - 1], freshId);
      LogMessagePreservesWf(LogAll(c, ctx, es[..|es| - 1], freshId), ctx, StudyConversation,
                            e.message, e.index, freshId);
    }
  }

  /** The entries of a whole history, indexed from zero in order. */
  function Enumerate(ms: seq<Message>): seq<Entry> {
    seq(|ms|, i requires 0 <= i < |ms| => Entry(ms[i], Some(i)))
  }

  /** `log_transcript`: mark the session's document completed, or create a
      completed one from the whole history. */
  function LogTranscript(c: Collection, ctx: Context, conversationType: string, ms: seq<Message>,
                         freshId: string): (w: Write)
    ensures w.id.Some? <==> conversationType == StudyConversation
    ensures |c| <= |w.coll| <= |c| + 1
  {
    if conversationType != StudyConversation then Write(c, None)
    else
      var k := StudyKey(ctx);
      match Find(c, k)
      case Some(i) => Write(c[i := c[i].(completed := true)], Some(c[i].id))
      case None =>
        Write(c + [Transcript(freshId, k.sessionKey, k.conversationType, Enumerate(ms), |ms|, true,
                              ctx.userIdentifier, ctx.conversationId, ctx.currentPrompt)],
              Some(freshId))
  }

  lemma LogTranscriptIgnoresOtherTypes(c: Collection, ctx: Context, ty: string, ms: seq<Message>,
                                       freshId: string)
    requires ty != StudyConversation
    ensures LogTranscript(c, ctx, ty, ms, freshId) == Write(c, None)
  {
  }

  /** On an existing key only the completed flag changes: messages and
      count are kept, as is every other key's document. */
  lemma {:induction false} LogTranscriptMarksCompleted(c: Collection, ctx: Context, ms: seq<Message>,
                                                       freshId: string, other: Key)
    requires Lookup(c, StudyKey(ctx)).Some?
    requires other != StudyKey(ctx)
    ensures var t := Lookup(c, StudyKey(ctx)).value;
            var w := LogTranscript(c, ctx, StudyConversation, ms, freshId);
            && |w.coll| == |c|
            && w.id == Some(t.id)
            && Lookup(w.coll, StudyKey(ctx)) == Some(t.(completed := true))
            && Lookup(w.coll, other) == Lookup(c, other)
  {
    var k := StudyKey(ctx);
    var i := Find(c, k).value;
    LookupUpdateFound(c, i, c[i].(completed := true), k);
    LookupUpdateOther(c, i, c[i].(completed := true), other);
  }

  /** On an absent key a completed document is created whose entries are
      the history with indices 0..n-1 and whose count is n. */
  lemma {:induction false} LogTranscriptCreates(c: Collection, ctx: Context, ms: seq<Message>,
                                                freshId: string, other: Key)
    requires Lookup(c, StudyKey(ctx)).None?
    requires other != StudyKey(ctx)
    ensures var w := LogTranscript(c, ctx, StudyConversation, ms, freshId);
            var t := Lookup(w.coll, StudyKey(ctx));
            && w.id == Some(freshId)
            && t.Some? && t.value.id == freshId && t.value.completed
            && t.value.messageCount == |ms| == |t.value.messages|
            && (forall i | 0 <= i < |ms| :: t.value.messages[i] == Entry(ms[i], Some(i)))
            && Lookup(w.coll, other) == Lookup(c, other)
  {
    var k := StudyKey(ctx);
    var t := Transcript(freshId, k.sessionKey, k.conversationType, Enumerate(ms), |ms|, true,
                        ctx.userIdentifier, ctx.conversationId, ctx.currentPrompt);
    LookupAppend(c, t, k);
    LookupAppend(c, t, other);
  }

  /** Logging the transcript a second time changes nothing more. */
  lemma {:induction false} LogTranscriptIdempotent(c: Collection, ctx: Context, ty: string,
                                                   ms: seq<Message>, id1: string, id2: string)
    ensures var w := LogTranscript(c, ctx, ty, ms, id1);
            LogTranscript(w.coll, ctx, ty, ms, id2) == w
  {
    if ty == StudyConversation {
      var k := StudyKey(ctx);
      var w := LogTranscript(c, ctx, ty, ms, id1);
      match Find(c, k)
      case Some(i) =>
        LookupUpdateFound(c, i, c[i].(completed := true), k);
        assert w.coll[i := w.coll[i].(completed := true)] == w.coll;
      case None =>
        var t := Transcript(id1, k.sessionKey, k.conversationType, Enumerate(ms), |ms|, true,
                            ctx.userIdentifier, ctx.conversationId, ctx.currentPrompt);
        FindSpec(c, k);
        assert forall j | 0 <= j < |c| :: w.coll[j] == c[j];
        FindFirst(w.coll, k, |c|);
        assert w.coll[|c| := w.coll[|c|].(completed := true)] == w.coll;
    }
  }

  lemma {:induction false} LogTranscriptPreservesWf(c: Collection, ctx: Context, ty: string,
                                                    ms: seq<Message>, freshId: string)
    requires Wf(c)
    ensures Wf(LogTranscript(c, ctx, ty, ms, freshId).coll)
  {
    if ty == StudyConversation {
      var k := StudyKey(ctx);
      match Find(c, k)
      case Some(i) => WfUpdate(c, i, c[i].(completed := true));
      case None =>
        WfAppend(c, Transcript(freshId, k.sessionKey, k.conversationType, Enumerate(ms), |ms|, true,
                               ctx.userIdentifier, ctx.conversationId, ctx.currentPrompt));
    }
  }

  /** The new key's document with the old document's messages pushed
      onto it and its count raised by their number. */
  function Merged(n: Transcript, o: Transcript): Transcript {
    n.(messages := n.messages + o.messages, messageCount := n.messageCount + |o.messages|)
  }

  /** `update_session_key` as written: push the old document's messages
      onto the new key's document and delete the old one by its position,
      or rename the old document when the new key is free. */
  function UpdateSessionKeyAsWritten(c: Collection, oldKey: string, newKey: string, ty: string): (w: Write)
    ensures w.id.Some? <==> Lookup(c, Key(oldKey, ty)).Some?
    ensures |w.coll| <= |c| && (Lookup(c, Key(newKey, ty)).None? ==> |w.coll| == |c|)
  {
    match Find(c, Key(oldKey, ty))
    case None => Write(c, None)
    case Some(i) =>
      match Find(c, Key(newKey, ty))
      case Some(j) => Write(RemoveAt(c[j := Merged(c[j], c[i])], i), Some(c[j].id))
      case None => Write(c[i := c[i].(sessionKey := newKey)], Some(c[i].id))
  }

  /** Re-keying a session to its own key deletes its transcript. */
  lemma {:induction false} UpdateToSameKeyDeletes(c: Collection, k: string, ty: string)
    requires Wf(c) && Lookup(c, Key(k, ty)).Some?
    ensures Lookup(UpdateSessionKeyAsWritten(c, k, k, ty).coll, Key(k, ty)).None?
  {
    var i := Find(c, Key(k, ty)).value;
    var c1 := c[i := Merged(c[i], c[i])];
    forall a | 0 <= a < |c1| && a != i ensures KeyOf(c1[a]) != Key(k, ty) {
      assert c1[a] == c[a];
    }
    LookupRemoveOnly(c1, i);
  }

  /** The evidently intended `update_session_key`: re-keying to the same
      key leaves the transcript alone. */
  function UpdateSessionKey(c: Collection, oldKey: string, newKey: string, ty: string): Write {
    if oldKey == newKey then
      match Lookup(c, Key(oldKey, ty))
      case Some(t) => Write(c, Some(t.id))
      case None => Write(c, None)
    else UpdateSessionKeyAsWritten(c, oldKey, newKey, ty)
  }

  /** No document under the old key: nothing changes and `None` is returned. */
  lemma UpdateSessionKeyOldAbsent(c: Collection, oldKey: string, newKey: string, ty: string)
    requires Lookup(c, Key(oldKey, ty)).None?
    ensures UpdateSessionKey(c, oldKey, newKey, ty) == Write(c, None)
  {
  }

  /** Re-keying to the same key changes nothing. */
  lemma UpdateSessionKeySameKey(c: Collection, k: string, ty: string)
    ensures UpdateSessionKey(c, k, k, ty).coll == c
  {
  }

  /** Both keys present: the new document's messages are its own followed
      by the old ones, its count rises by the old document's number of
      messages, the old document is gone and every other key is kept. */
  lemma {:induction false} UpdateSessionKeyMerges(c: Collection, oldKey: string, newKey: string, ty: string,
                                                  o: Transcript, n: Transcript, other: Key)
    requires Wf(c) && oldKey != newKey
    requires Lookup(c, Key(oldKey, ty)) == Some(o) && Lookup(c, Key(newKey, ty)) == Some(n)
    requires other != Key(oldKey, ty) && other != Key(newKey, ty)
    ensures var w := UpdateSessionKey(c, oldKey, newKey, ty);
            && |w.coll| == |c| - 1
            && w.id == Some(n.id)
            && Lookup(w.coll, Key(newKey, ty))
               == Some(n.(messages := n.messages + o.messages, messageCount := n.messageCount + |o.messages|))
            && Lookup(w.coll, Key(oldKey, ty)).None?
            && Lookup(w.coll, other) == Lookup(c, other)
  {
    var i := Find(c, Key(oldKey, ty)).value;
    var j := Find(c, Key(newKey, ty)).value;
    assert o == c[i] && n == c[j] && i != j;
    assert UpdateSessionKey(c, oldKey, newKey, ty) == Write(RemoveAt(c[j := Merged(n, o)], i), Some(n.id));
    MergeLookups(c, i, j, Merged(n, o), other);
  }

  /** Replacing the `j`th document by one with its key and then removing
      the `i`th, the only one with its key: the replacement is found under
      its key, nothing under the removed key, and any other key is kept. */
  lemma {:induction false} MergeLookups(c: Collection, i: nat, j: nat, m: Transcript, other: Key)
    requires i < |c| && j < |c| && i != j
    requires forall a | 0 <= a < |c| && a != i :: KeyOf(c[a]) != KeyOf(c[i])
    requires Find(c, KeyOf(c[j])) == Some(j) && KeyOf(m) == KeyOf(c[j])
    requires other != KeyOf(c[i]) && other != KeyOf(c[j])
    ensures Lookup(RemoveAt(c[j := m], i), KeyOf(c[j])) == Some(m)
    ensures Lookup(RemoveAt(c[j := m], i), KeyOf(c[i])).None?
    ensures Lookup(RemoveAt(c[j := m], i), other) == Lookup(c, other)
  {
    var c1 := c[j := m];
    LookupUpdateFound(c, j, m, KeyOf(c[j]));
    LookupUpdateOther(c, j, m, other);
    assert c1[i] == c[i];
    forall a | 0 <= a < |c1| && a != i ensures KeyOf(c1[a]) != KeyOf(c1[i]) {
      if a != j { assert c1[a] == c[a]; }
    }
    LookupRemoveOther(c1, i, KeyOf(c[j]));
    LookupRemoveOther(c1, i, other);
    LookupRemoveOnly(c1, i);
  }

  /** Only the old key present: the same document is kept under the new
      key, with nothing else about it changed. */
  lemma {:induction false} UpdateSessionKeyRenames(c: Collection, oldKey: string, newKey: string, ty: string,
                                                   other: Key)
    requires Wf(c)
    requires Lookup(c, Key(oldKey, ty)).Some? && Lookup(c, Key(newKey, ty)).None?
    requires other != Key(oldKey, ty) && other != Key(newKey, ty)
    ensures var o := Lookup(c, Key(oldKey, ty)).value;
            var w := UpdateSessionKey(c, oldKey, newKey, ty);
            && |w.coll| == |c|
            && w.id == Some(o.id)
            && Lookup(w.coll, Key(newKey, ty)) == Some(o.(sessionKey := newKey))
            && Lookup(w.coll, Key(oldKey, ty)).None?
            && Lookup(w.coll, other) == Lookup(c, other)
  {
    FindSpec(c, Key(newKey, ty));
    var i := Find(c, Key(oldKey, ty)).value;
    var t := c[i].(sessionKey := newKey);
    var c1 := c[i := t];
    assert KeyOf(c[i]) == Key(oldKey, ty);
    assert KeyOf(c1[i]) == Key(newKey, ty);
    forall a | 0 <= a < i ensures KeyOf(c1[a]) != Key(newKey, ty) {
      assert c1[a] == c[a];
    }
    FindFirst(c1, Key(newKey, ty), i);
    forall a | 0 <= a < |c1| ensures KeyOf(c1[a]) != Key(oldKey, ty) {
      if a != i { assert c1[a] == c[a]; }
    }
    LookupUpdateOther(c, i, t, other);
  }

  /** Re-keying as written keeps one document per key, on the same-key
      path too (where the document is merged with itself and removed). */
  lemma {:induction false} UpdateSessionKeyAsWrittenPreservesWf(c: Collection, oldKey: string, newKey: string,
                                                                ty: string)
    requires Wf(c)
    ensures Wf(UpdateSessionKeyAsWritten(c, oldKey, newKey, ty).coll)
  {
    match Find(c, Key(oldKey, ty))
    case None =>
    case Some(i) =>
      match Find(c, Key(newKey, ty))
      case Some(j) =>
        WfUpdate(c, j, Merged(c[j], c[i]));
        WfRemove(c[j := Merged(c[j], c[i])], i);
      case None =>
        WfUpdate(c, i, c[i].(sessionKey := newKey));
  }

  /** So does the corrected re-keying. */
  lemma {:induction false} UpdateSessionKeyPreservesWf(c: Collection, oldKey: string, newKey: string, ty: string)
    requires Wf(c)
    ensures Wf(UpdateSessionKey(c, oldKey, newKey, ty).coll)
  {
    if oldKey != newKey {
      UpdateSessionKeyAsWrittenPreservesWf(c, oldKey, newKey, ty);
    }
  }
}

=== FILE: turn.dfy ===
/** One submission of the chat input on the chat page of Home.py: the
    user message, the remote conversation, the composed model input, the
    streamed reply with its fallback, and the 1000-response ceiling. The
    provider calls are not made here: their outcomes are given, and the
    requests the page would send are recorded. */
module Turn {
  import opened Wrappers
  import opened Text
  import opened Chat
  import opened Session

  const MaxResponses := 1000
  const ClosingMessage := "Thanks for helping me study! I think I understand this topic much better now. \U{1F430}"
  const TextDeltaKind := "response.output_text.delta"
  const UserLabel := "\n\nUser: "

  /** A chunk of the primary stream: an event with a `type` attribute (and
      perhaps a `delta`), or an object without one (perhaps a `content`). */
  datatype ResponseChunk = Typed(kind: string, delta: Option<string>) | Untyped(content: Option<string>)

  /** A chunk of the fallback stream: the `delta.content` of each choice. */
  datatype CompletionChunk = CompletionChunk(choices: seq<Option<string>>)

  /** What the provider does with each call of one turn. */
  datatype CreateOutcome = Created(id: string) | CreateFailed
  datatype PrimaryOutcome = PrimaryStream(chunks: seq<ResponseChunk>) | PrimaryFailed
  datatype FallbackOutcome = FallbackStream(chunks: seq<CompletionChunk>) | FallbackFailed
  datatype Outcomes = Outcomes(create: CreateOutcome, primary: PrimaryOutcome, fallback: FallbackOutcome)

  /** The calls the page makes, with the arguments that matter. */
  datatype Request =
    | CreateConversation(userIdentifier: string)
    | StreamResponse(conversation: string, input: string, instructions: string)
    | ChatCompletion(messages: seq<Message>)

  /** How a submission ended: no submission, the ceiling's closing message,
      no conversation (the page returns early), a reply, or an exception
      raised out of the fallback. */
  datatype Status = NoInput | Closed | NoConversation | Replied(reply: string) | Raised

  datatype TurnResult = TurnResult(state: State, status: Status, requests: seq<Request>)

  /** The chat input is drawn disabled once the conversation is finished or
      the ceiling is reached. The flag is fixed when the widget is drawn,
      before the run handles the submission. */
  predicate InputEnabled(s: State) {
    !s.finished && s.responseCounter < MaxResponses
  }

  /** The text one primary chunk contributes: a non-empty delta of a
      text-delta event, the non-empty content of an untyped chunk, or
      nothing. */
  function ChunkText(c: ResponseChunk): string {
    match c
    case Typed(kind, delta) =>
      if kind == TextDeltaKind && delta.Some? && delta.value != "" then delta.value else ""
    case Untyped(content) =>
      if content.Some? && content.value != "" then content.value else ""
  }

  /** The accumulated primary reply, chunk after chunk. */
  function PrimaryReply(chunks: seq<ResponseChunk>): string
    decreases |chunks|
  {
    if |chunks| == 0 then ""
    else PrimaryReply(chunks[..|chunks| - 1]) + ChunkText(chunks[|chunks| - 1])
  }

  /** The reply of a stream is the replies of its parts, in order. */
  lemma {:induction false} PrimaryReplyAppend(a: seq<ResponseChunk>, b: seq<ResponseChunk>)
    ensures PrimaryReply(a + b) == PrimaryReply(a) + PrimaryReply(b)
    decreases |b|
  {
    if |b| > 0 {
      var b' := b[..|b| - 1];
      assert (a + b)[..|a + b| - 1] == a + b';
      PrimaryReplyAppend(a, b');
    } else {
      assert a + b == a;
    }
  }

  /** Events of any other type, and deltas or contents that are absent or
      empty, leave the reply as it was. */
  lemma {:induction false} PrimaryReplyIgnoresOtherChunks(chunks: seq<ResponseChunk>, c: ResponseChunk)
    requires c.Typed? ==> c.kind != TextDeltaKind || c.delta.None? || c.delta.value == ""
    requires c.Untyped? ==> c.content.None? || c.content.value == ""
    ensures PrimaryReply(chunks + [c]) == PrimaryReply(chunks)
  {
    assert (chunks + [c])[..|chunks|] == chunks;
  }

  /** The streaming loop of the page, accumulating into `text`. */
  method StreamPrimary(chunks: seq<ResponseChunk>) returns (text: string)
    ensures text == PrimaryReply(chunks)
  {
    text := "";
    var i := 0;
    while i < |chunks|
      invariant 0 <= i <= |chunks|
      invariant text == PrimaryReply(chunks[..i])
    {
      assert chunks[..i + 1][..i] == chunks[..i];
      text := text + ChunkText(chunks[i]);
      i := i + 1;
    }
    assert chunks[..|chunks|] == chunks;
  }

  /** The text one fallback chunk contributes: the content of its first
      choice, or nothing when that is `None`. */
  function ChoiceText(c: CompletionChunk): string
    requires c.choices != []
  {
    if c.choices[0].Some? then c.choices[0].value else ""
  }

  /** The fallback reply: the non-`None` contents of each chunk's first
      choice, or `None` when a chunk without choices makes the loop raise. */
  function FallbackReply(chunks: seq<CompletionChunk>): (r: Option<string>)
    ensures r.None? <==> exists i | 0 <= i < |chunks| :: chunks[i].choices == []
    decreases |chunks|
  {
    if |chunks| == 0 then Some("")
    else
      var init := chunks[..|chunks| - 1];
      var last := chunks[|chunks| - 1];
      assert forall i | 0 <= i < |init| :: init[i] == chunks[i];
      match FallbackReply(init)
      case None => None
      case Some(text) =>
        if last.choices == [] then None
        else Some(text + ChoiceText(last))
  }

  /** One chunk raises without choices and otherwise gives its first
      choice's text. */
  lemma FallbackReplyOne(c: CompletionChunk)
    ensures FallbackReply([c]) == if c.choices == [] then None else Some(ChoiceText(c))
  {
    assert [c][..0] == [];
    assert FallbackReply([]) == Some("");
    if c.choices != [] {
      assert "" + ChoiceText(c) == ChoiceText(c);
    }
  }

  /** The fallback reply of a stream is the replies of its parts, in
      order, and it raises when either part raises. */
  lemma {:induction false} FallbackReplyAppend(a: seq<CompletionChunk>, b: seq<CompletionChunk>)
    ensures FallbackReply(a + b)
            == if FallbackReply(a).Some? && FallbackReply(b).Some?
               then Some(FallbackReply(a).value + FallbackReply(b).value)
               else None
    decreases |b|
  {
    if |b| == 0 {
      assert a + b == a;
      assert FallbackReply(b) == Some("");
      if FallbackReply(a).Some? {
        assert FallbackReply(a).value + "" == FallbackReply(a).value;
      }
    } else {
      var b' := b[..|b| - 1];
      var last := b[|b| - 1];
      assert (a + b)[..|a + b| - 1] == a + b';
      assert (a + b)[|a + b| - 1] == last;
      FallbackReplyAppend(a, b');
      if FallbackReply(a).Some? && FallbackReply(b').Some? && last.choices != [] {
        var x, y := FallbackReply(a).value, FallbackReply(b').value;
        assert (x + y) + ChoiceText(last) == x + (y + ChoiceText(last));
      }
    }
  }

  /** The reply the fallback call yields, `None` when the call or its
      loop raises. */
  function FallbackOutcomeReply(f: FallbackOutcome): Option<string> {
    match f
    case FallbackStream(chunks) => FallbackReply(chunks)
    case FallbackFailed => None
  }

  /** The model input: the recent hints joined by newlines, a blank line
      and `User: ` with the prompt, stripped. */
  function CombinedInput(hints: seq<string>, prompt: string): string {
    Strip(Join(hints, "\n") + UserLabel + prompt)
  }

  /** Without hints the input is the stripped `User: ` line. */
  lemma {:induction false} CombinedInputWithoutHints(prompt: string)
    ensures CombinedInput([], prompt) == Strip("User: " + prompt)
  {
    assert Join([], "\n") + UserLabel + prompt == "\n\n" + ("User: " + prompt);
    StripDropsLeadingSpace("\n\n", "User: " + prompt);
  }

  /** With hints (each revealed hint starts with the hint prefix), the
      hints reach the model verbatim: only trailing whitespace of the
      prompt is stripped. */
  lemma {:induction false} CombinedInputKeepsHints(hints: seq<string>, prompt: string)
    requires |hints| > 0 && StartsWith(hints[0], HintPrefix)
    ensures CombinedInput(hints, prompt) == Join(hints, "\n") + StripRight(UserLabel + prompt)
  {
    var j := Join(hints, "\n");
    var x := j + UserLabel + prompt;
    assert j[0] == hints[0][0] == 'L';
    assert x == j + (UserLabel + prompt);
    assert x[0] == 'L';
    assert Strip(x) == StripRight(x);
    assert (UserLabel + prompt)[2] == 'U';
    StripRightKeepsPrefix(j, UserLabel + prompt);
  }

  /** What `create_or_get_conversation` leaves behind: the session, the id
      it returns (`None` after a failed creation) and the calls it made. */
  datatype Ensured = Ensured(state: State, id: Option<string>, requests: seq<Request>)

  /** `create_or_get_conversation`. */
  function EnsureConversation(s: State, create: CreateOutcome): (e: Ensured)
    ensures Truthy(s.conversationId) ==> e == Ensured(s, s.conversationId, [])
    ensures !Truthy(s.conversationId) ==> e.requests == [CreateConversation(s.userIdentifier)]
    ensures e.state == s.(conversationId := e.state.conversationId)
    ensures e.id.Some? ==> e.state.conversationId == e.id
    ensures create.CreateFailed? && !Truthy(s.conversationId) ==> e.id.None? && e.state == s
    ensures create.Created? && !Truthy(s.conversationId) ==>
              e.id == Some(create.id) && e.state.conversationId == Some(create.id)
  {
    if Truthy(s.conversationId) then Ensured(s, s.conversationId, [])
    else match create
      case Created(id) => Ensured(s.(conversationId := Some(id)), Some(id), [CreateConversation(s.userIdentifier)])
      case CreateFailed => Ensured(s, None, [CreateConversation(s.userIdentifier)])
  }

  /** A truthy conversation id is at hand: the stored one, or a created
      one. */
  predicate ConversationAvailable(s: State, create: CreateOutcome) {
    Truthy(s.conversationId) || (create.Created? && create.id != "")
  }

  /** The calls `create_or_get_conversation` makes: none when an id is
      stored, otherwise the creation. */
  function CreateRequests(s: State): seq<Request> {
    if Truthy(s.conversationId) then [] else [CreateConversation(s.userIdentifier)]
  }

  /** The conversation a turn streams to: the stored one, or the created
      one. */
  function ConversationOf(s: State, create: CreateOutcome): string
    requires ConversationAvailable(s, create)
  {
    if Truthy(s.conversationId) then s.conversationId.value else create.id
  }

  /** The session after a reply: one more response, the reply in the
      history, the recent hints consumed. */
  function Answered(s: State, reply: string): State {
    s.(responseCounter := s.responseCounter + 1,
       chatHistory := s.chatHistory + [Message(Assistant, reply)],
       recentHints := [])
  }

  /** The page's handling of a submitted `prompt`, from appending the user
      message to updating the counters. */
  function HandleSubmission(s: State, prompt: string, o: Outcomes): (t: TurnResult)
    ensures |t.state.chatHistory| > |s.chatHistory|
    ensures t.state.chatHistory[..|s.chatHistory| + 1] == s.chatHistory + [Message(User, prompt)]
    ensures t.status.Closed? <==> s.responseCounter >= MaxResponses
    ensures t.status.Closed? ==>
              && t.requests == []
              && t.state == s.(chatHistory := s.chatHistory + [Message(User, prompt), Message(Assistant, ClosingMessage)],
                               finished := true)
    ensures t.status.Replied? ==>
              && t.state.responseCounter == s.responseCounter + 1
              && t.state.chatHistory == s.chatHistory + [Message(User, prompt), Message(Assistant, t.status.reply)]
              && t.state.recentHints == []
    ensures !t.status.Replied? ==> t.state.responseCounter == s.responseCounter
    ensures t.status.NoConversation? || t.status.Raised? ==>
              && t.state.chatHistory == s.chatHistory + [Message(User, prompt)]
              && t.state.recentHints == s.recentHints
    ensures !t.status.Closed? ==> !t.status.NoInput? && t.state.finished == s.finished
    ensures t.state.userIdentifier == s.userIdentifier && t.state.currentPrompt == s.currentPrompt
    ensures t.state.promptContent == s.promptContent && t.state.hintIndex == s.hintIndex
    ensures t.state.sessionId == s.sessionId && t.state.promptVersion == s.promptVersion
    ensures s.responseCounter < MaxResponses ==>
              (t.status.NoConversation? <==> !ConversationAvailable(s, o.create))
    ensures s.responseCounter < MaxResponses && ConversationAvailable(s, o.create) && o.primary.PrimaryStream? ==>
              t.status == Replied(PrimaryReply(o.primary.chunks))
    ensures s.responseCounter < MaxResponses && ConversationAvailable(s, o.create) && o.primary.PrimaryFailed? ==>
              t.status == (if FallbackOutcomeReply(o.fallback).Some? then Replied(FallbackOutcomeReply(o.fallback).value)
                           else Raised)
    ensures Truthy(s.conversationId) ==> t.state.conversationId == s.conversationId
    ensures forall i | 0 <= i < |t.requests| && t.requests[i].StreamResponse? ::
              t.state.conversationId == Some(t.requests[i].conversation)
              && t.requests[i].input == CombinedInput(s.recentHints, prompt)
              && t.requests[i].instructions == s.promptContent
    ensures forall i | 0 <= i < |t.requests| && t.requests[i].ChatCompletion? ::
              t.requests[i].messages
                == [Message(System, s.promptContent)] + s.chatHistory + [Message(User, prompt)]
  {
    var s1 := s.(chatHistory := s.chatHistory + [Message(User, prompt)]);
    if s1.responseCounter >= MaxResponses then
      TurnResult(s1.(chatHistory := s1.chatHistory + [Message(Assistant, ClosingMessage)], finished := true),
                 Closed, [])
    else
      var e := EnsureConversation(s1, o.create);
      if !Truthy(e.id) then TurnResult(e.state, NoConversation, e.requests)
      else
        var s2 := e.state;
        var primary := StreamResponse(e.id.value, CombinedInput(s2.recentHints, prompt), s2.promptContent);
        match o.primary
        case PrimaryStream(chunks) =>
          var reply := PrimaryReply(chunks);
          TurnResult(Answered(s2, reply), Replied(reply), e.requests + [primary])
        case PrimaryFailed =>
          var fallback := ChatCompletion([Message(System, s2.promptContent)] + s2.chatHistory);
          var reply := FallbackOutcomeReply(o.fallback);
          if reply.Some? then
            TurnResult(Answered(s2, reply.value), Replied(reply.value), e.requests + [primary, fallback])
          else TurnResult(s2, Raised, e.requests + [primary, fallback])
  }

  /** Below the ceiling a turn makes the creation call when no id is
      stored, then, with a conversation at hand, exactly one stream call
      to it, and the fallback call exactly when the primary call fails. A
      created id is kept in the session; a failed creation stores nothing,
      so the next submission tries again. */
  lemma SubmissionRequests(s: State, prompt: string, o: Outcomes)
    requires s.responseCounter < MaxResponses
    ensures var t := HandleSubmission(s, prompt, o);
            && (!Truthy(s.conversationId) && o.create.Created? ==> t.state.conversationId == Some(o.create.id))
            && (!Truthy(s.conversationId) && o.create.CreateFailed? ==> t.state.conversationId == s.conversationId)
            && t.requests
               == CreateRequests(s)
                  + if !ConversationAvailable(s, o.create) then []
                    else [StreamResponse(ConversationOf(s, o.create), CombinedInput(s.recentHints, prompt), s.promptContent)]
                         + if o.primary.PrimaryStream? then []
                           else [ChatCompletion([Message(System, s.promptContent)] + s.chatHistory + [Message(User, prompt)])]
  {
    var s1 := s.(chatHistory := s.chatHistory + [Message(User, prompt)]);
    var e := EnsureConversation(s1, o.create);
    assert e.requests == CreateRequests(s);
    assert [Message(System, s.promptContent)] + s1.chatHistory
           == [Message(System, s.promptContent)] + s.chatHistory + [Message(User, prompt)];
  }

  /** The chat input of one run. `typed` is what was submitted on the
      page the user saw, empty when nothing was; `shown` says whether that
      page drew the input enabled. The submission is handled whatever the
      `disabled` flag of this run's widget says. */
  function ChatInputSubmit(s: State, shown: bool, typed: string, o: Outcomes): (t: TurnResult)
    ensures t.status.NoInput? <==> !shown || typed == ""
    ensures t.status.NoInput? ==> t == TurnResult(s, NoInput, [])
  {
    if shown && typed != "" then HandleSubmission(s, typed, o)
    else TurnResult(s, NoInput, [])
  }

  /** A submission at or over the ceiling takes the closing branch: the
      user text and the closing message are appended, the conversation is
      finished, and nobody is called. */
  lemma CeilingCloses(s: State, typed: string, o: Outcomes)
    requires typed != "" && s.responseCounter >= MaxResponses
    ensures ChatInputSubmit(s, true, typed, o)
            == TurnResult(s.(chatHistory := s.chatHistory + [Message(User, typed), Message(Assistant, ClosingMessage)],
                             finished := true),
                          Closed, [])
  {
  }

  /** A submission never takes the counter past the ceiling, and raises it by
      at most one. */
  lemma CounterBounded(s: State, shown: bool, typed: string, o: Outcomes)
    requires s.responseCounter <= MaxResponses
    ensures var t := ChatInputSubmit(s, shown, typed, o);
            s.responseCounter <= t.state.responseCounter <= s.responseCounter + 1
            && t.state.responseCounter <= MaxResponses
  {
  }

  /** The chunks of a short primary stream. */
  const SampleStream := [Typed(TextDeltaKind, Some("Hi")),
                         Typed("response.completed", None),
                         Typed(TextDeltaKind, Some(" there")),
                         Untyped(Some("!"))]

  /** Text deltas and untyped contents are concatenated; other events
      contribute nothing. */
  lemma SampleStreamReply()
    ensures PrimaryReply(SampleStream) == "Hi there!"
  {
    var c := SampleStream;
    assert c[..1][..0] == [];
    assert PrimaryReply(c[..1]) == "Hi";
    assert c[..2][..1] == c[..1];
    assert PrimaryReply(c[..2]) == "Hi";
    assert c[..3][..2] == c[..2];
    assert PrimaryReply(c[..3]) == "Hi there";
    assert c[..3] == c[..|c| - 1];
  }

  /** A streamed reply in an existing conversation. */
  lemma StreamedTurn(s: State, o: Outcomes)
    requires InputEnabled(s) && Truthy(s.conversationId)
    requires o.primary == PrimaryStream(SampleStream)
    ensures var t := ChatInputSubmit(s, true, "Hello", o);
            && t.status == Replied("Hi there!")
            && t.state.responseCounter == s.responseCounter + 1
            && t.requests == [StreamResponse(s.conversationId.value, CombinedInput(s.recentHints, "Hello"), s.promptContent)]
  {
    SampleStreamReply();
  }

  /** The chunks of a short fallback stream, one without content. */
  const SampleFallback := [CompletionChunk([Some("O")]), CompletionChunk([None]), CompletionChunk([Some("K")])]

  /** The first choice's contents are concatenated; a missing content
      contributes nothing. */
  lemma SampleFallbackReply()
    ensures FallbackReply(SampleFallback) == Some("OK")
  {
    var c := SampleFallback;
    assert c[..1][..0] == [];
    assert FallbackReply(c[..1][..0]) == Some("");
    assert c[..1][0].choices != [];
    assert c[..1][0].choices[0] == Some("O");
    assert FallbackReply(c[..1]) == Some("" + "O");
    assert "" + "O" == "O";
    assert c[..2][..1] == c[..1];
    assert FallbackReply(c[..2]) == Some("O" + "");
    assert "O" + "" == "O";
    assert c[..2] == c[..|c| - 1];
    assert FallbackReply(c) == Some("O" + "K");
    assert "O" + "K" == "OK";
  }

  /** A failed primary call answered by the fallback stream. */
  lemma FallbackTurn(s: State, o: Outcomes)
    requires InputEnabled(s) && Truthy(s.conversationId)
    requires o.primary == PrimaryFailed
    requires o.fallback == FallbackStream(SampleFallback)
    ensures var t := ChatInputSubmit(s, true, "Hello", o);
            var h := s.chatHistory + [Message(User, "Hello")];
            && t.status == Replied("OK")
            && t.state.responseCounter == s.responseCounter + 1
            && t.requests == [StreamResponse(s.conversationId.value, CombinedInput(s.recentHints, "Hello"), s.promptContent),
                              ChatCompletion([Message(System, s.promptContent)] + h)]
  {
    SampleFallbackReply();
  }
}

=== FILE: visit.dfy ===
/** A visit to the chat page of Home.py as a sequence of interactions, each
    one page run: the sidebar prompt selector and New Conversation button,
    the greeting added to an empty history, the chat input, and the Show
    Hint and End Study Session buttons with the gates under which they are
    shown. A run draws its controls in page order: the New Conversation
    button from the session it starts with, the chat input before the
    submission is handled, the two buttons after it, and none of the two
    when the turn returns early or raises. So the page left behind by a
    turn shows controls from different moments of that run; every other
    interaction that changes the session reruns the page, which draws all
    controls from the final state. A press takes effect only when the
    visitor's page offers the control and the run handling it draws the
    control again. */
module Visit {
  import opened Wrappers
  import opened Text
  import opened Chat
  import opened Session
  import Prompts
  import Hints
  import Identifiers
  import Turn
  import Transcripts

  /** The prompt whose variation offers hints. */
  const HintPrompt := "rabbit_v3"

  /** The files the page reads: the prompt catalog and the solution file. */
  datatype Page = Page(src: Prompts.Source, hintFile: Option<seq<string>>)

  /** One interaction: a chat submission with the provider's outcomes, a
      button press, or a choice in the prompt selector. `EndSession`
      carries the id a new transcript document would receive. */
  datatype Event =
    | Submit(typed: string, outcomes: Turn.Outcomes)
    | RevealHint
    | NewConversation
    | SelectPrompt(name: string)
    | EndSession(freshId: string)

  /** The controls a page offers besides the always-present prompt
      selector: an enabled chat input and the three buttons. */
  datatype Controls = Controls(input: bool, newConversation: bool, hint: bool, end: bool)

  /** The session of the visitor, the transcript store, and the controls
      of the page the visitor sees. */
  datatype World = World(state: State, transcripts: Transcripts.Collection, shown: Controls)

  /** The controls a run draws when the session does not change during it. */
  function Drawn(p: Page, s: State): Controls {
    Controls(Turn.InputEnabled(s), Truthy(s.conversationId), HintButtonShown(p, s), EndButtonShown(s))
  }

  /** A page drawn from the session it ends with. */
  function Shown(p: Page, s: State, c: Transcripts.Collection): World {
    World(s, c, Drawn(p, s))
  }

  /** The values the logging functions read from the session. */
  function LogContext(s: State): Transcripts.Context {
    Transcripts.Context(s.userIdentifier, s.conversationId, s.sessionId, s.currentPrompt)
  }

  predicate HintButtonShown(p: Page, s: State) {
    && !s.finished
    && s.chatHistory != []
    && Hints.NextHint(p.hintFile, s.hintIndex).Hint?
    && s.currentPrompt == HintPrompt
  }

  predicate EndButtonShown(s: State) {
    !s.finished && s.chatHistory != []
  }

  /** The End Study Session button: the session is finished, its transcript
      marked completed (or created), and the returned id becomes the session
      id; the rerun draws the input disabled. */
  function EndStudySession(p: Page, s: State, c: Transcripts.Collection, freshId: string): World {
    var log := Transcripts.LogTranscript(c, LogContext(s), Transcripts.StudyConversation,
                                         s.chatHistory, freshId);
    Shown(p, s.(finished := true, sessionId := log.id), log.coll)
  }

  /** The page left by a submission: the New Conversation button from the
      session the run started with, the input from the session before the
      turn, and the buttons after the turn unless it returned early or
      raised. */
  function AfterTurn(p: Page, s: State, g: State, t: Turn.TurnResult, c: Transcripts.Collection): World {
    var drawsButtons := !(t.status.NoConversation? || t.status.Raised?);
    World(t.state, c, Controls(Turn.InputEnabled(g), Truthy(s.conversationId),
                               drawsButtons && HintButtonShown(p, t.state),
                               drawsButtons && EndButtonShown(t.state)))
  }

  /** One page run handling `e`. A reset (prompt switch, new conversation)
      or a hint reveals and reruns, so its greeting comes from the next run;
      the other interactions happen after the greeting of this run. A
      submission or button press is accepted when the page it came from
      offered the control and this run draws it again; a press that is not
      accepted leaves a plain run of the page. */
  function Step(p: Page, w: World, e: Event): (r: World)
    ensures r.state.userIdentifier == w.state.userIdentifier
    ensures !e.EndSession? ==> r.transcripts == w.transcripts
    ensures !IsReset(e) ==> r.state.currentPrompt == w.state.currentPrompt
    ensures (e.NewConversation? && !w.shown.newConversation) || (e.RevealHint? && !w.shown.hint)
            || (e.EndSession? && !w.shown.end)
            ==> r == Shown(p, EnsureGreeting(w.state), w.transcripts)
  {
    var s := w.state;
    match e
    case SelectPrompt(name) =>
      Shown(p, EnsureGreeting(ChangePromptAndReset(s, p.src, name)), w.transcripts)
    case NewConversation =>
      if w.shown.newConversation && Truthy(s.conversationId) then Shown(p, EnsureGreeting(Clear(s)), w.transcripts)
      else Shown(p, EnsureGreeting(s), w.transcripts)
    case Submit(typed, o) =>
      var g := EnsureGreeting(s);
      AfterTurn(p, s, g, Turn.ChatInputSubmit(g, w.shown.input, typed, o), w.transcripts)
    case RevealHint =>
      var g := EnsureGreeting(s);
      if w.shown.hint && HintButtonShown(p, g) then Shown(p, EnsureGreeting(ShowNextHint(g, p.hintFile)), w.transcripts)
      else Shown(p, g, w.transcripts)
    case EndSession(freshId) =>
      var g := EnsureGreeting(s);
      if w.shown.end && EndButtonShown(g) then EndStudySession(p, g, w.transcripts, freshId)
      else Shown(p, g, w.transcripts)
  }

  function Run(p: Page, w: World, es: seq<Event>): World
    decreases |es|
  {
    if |es| == 0 then w else Run(p, Step(p, w, es[0]), es[1..])
  }

  /** Events that clear the conversation. */
  predicate IsReset(e: Event) {
    e.NewConversation? || e.SelectPrompt?
  }

  lemma StepCounterBounded(p: Page, w: World, e: Event)
    requires w.state.responseCounter <= Turn.MaxResponses
    ensures Step(p, w, e).state.responseCounter <= Turn.MaxResponses
  {
    if e.Submit? {
      Turn.CounterBounded(EnsureGreeting(w.state), w.shown.input, e.typed, e.outcomes);
    }
  }

  /** Over any visit the response counter never passes the ceiling. */
  lemma {:induction false} RunCounterBounded(p: Page, w: World, es: seq<Event>)
    requires w.state.responseCounter <= Turn.MaxResponses
    ensures Run(p, w, es).state.responseCounter <= Turn.MaxResponses
    decreases |es|
  {
    if |es| > 0 {
      StepCounterBounded(p, w, es[0]);
      RunCounterBounded(p, Step(p, w, es[0]), es[1..]);
    }
  }

  lemma StepPreservesWf(p: Page, w: World, e: Event)
    requires Transcripts.Wf(w.transcripts)
    ensures Transcripts.Wf(Step(p, w, e).transcripts)
  {
    if e.EndSession? {
      var g := EnsureGreeting(w.state);
      Transcripts.LogTranscriptPreservesWf(w.transcripts, LogContext(g), Transcripts.StudyConversation,
                                           g.chatHistory, e.freshId);
    }
  }

  /** Over any visit the store keeps one document per session key. */
  lemma {:induction false} RunPreservesWf(p: Page, w: World, es: seq<Event>)
    requires Transcripts.Wf(w.transcripts)
    ensures Transcripts.Wf(Run(p, w, es).transcripts)
    decreases |es|
  {
    if |es| > 0 {
      StepPreservesWf(p, w, es[0]);
      RunPreservesWf(p, Step(p, w, es[0]), es[1..]);
    }
  }

  lemma StepHintMonotone(p: Page, w: World, e: Event)
    requires !IsReset(e)
    ensures Step(p, w, e).state.hintIndex >= w.state.hintIndex
  {
  }

  /** Without a reset the hint cursor never moves back. */
  lemma {:induction false} RunHintMonotone(p: Page, w: World, es: seq<Event>)
    requires forall i | 0 <= i < |es| :: !IsReset(es[i])
    ensures Run(p, w, es).state.hintIndex >= w.state.hintIndex
    decreases |es|
  {
    if |es| > 0 {
      StepHintMonotone(p, w, es[0]);
      RunHintMonotone(p, Step(p, w, es[0]), es[1..]);
    }
  }

  /** The pages a visit can show: the counter within the ceiling, no
      enabled input in a finished session, and a finished session's page
      drawn from that session. */
  predicate Coherent(p: Page, w: World) {
    && w.state.responseCounter <= Turn.MaxResponses
    && (w.shown.input ==> !w.state.finished)
    && (w.state.finished ==> w.shown == Drawn(p, w.state))
  }

  lemma StepCoherent(p: Page, w: World, e: Event)
    requires Coherent(p, w)
    ensures Coherent(p, Step(p, w, e))
  {
    if e.Submit? {
      Turn.CounterBounded(EnsureGreeting(w.state), w.shown.input, e.typed, e.outcomes);
    }
  }

  /** Over any visit no page offers an enabled input once the session is
      finished, so the closing message is given at most once. */
  lemma {:induction false} RunCoherent(p: Page, w: World, es: seq<Event>)
    requires Coherent(p, w)
    ensures Coherent(p, Run(p, w, es))
    decreases |es|
  {
    if |es| > 0 {
      StepCoherent(p, w, es[0]);
      RunCoherent(p, Step(p, w, es[0]), es[1..]);
    }
  }

  /** A finished session is frozen until it is reset: no interaction other
      than a reset changes the session or the store. */
  lemma StepFinishedFrozen(p: Page, w: World, e: Event)
    requires Coherent(p, w) && w.state.finished && w.state.chatHistory != [] && !IsReset(e)
    ensures Step(p, w, e) == w
  {
  }

  lemma {:induction false} RunFinishedFrozen(p: Page, w: World, es: seq<Event>)
    requires Coherent(p, w) && w.state.finished && w.state.chatHistory != []
    requires forall i | 0 <= i < |es| :: !IsReset(es[i])
    ensures Run(p, w, es) == w
    decreases |es|
  {
    if |es| > 0 {
      StepFinishedFrozen(p, w, es[0]);
      RunFinishedFrozen(p, w, es[1..]);
    }
  }

  /** Ending the session leaves a completed transcript under the session
      key it was logged with, and its id as the session id. */
  lemma EndSessionRecordsTranscript(p: Page, w: World, freshId: string)
    requires w.shown.end && EndButtonShown(w.state)
    ensures var w' := Step(p, w, EndSession(freshId));
            var t := Transcripts.Lookup(w'.transcripts, Transcripts.StudyKey(LogContext(w.state)));
            && w'.state.finished
            && t.Some? && t.value.completed
            && w'.state.sessionId == Some(t.value.id)
  {
    var ctx := LogContext(w.state);
    var other := Transcripts.Key(Transcripts.SessionKey(ctx), "");
    match Transcripts.Lookup(w.transcripts, Transcripts.StudyKey(ctx))
    case Some(_) =>
      Transcripts.LogTranscriptMarksCompleted(w.transcripts, ctx, w.state.chatHistory, freshId, other);
    case None =>
      Transcripts.LogTranscriptCreates(w.transcripts, ctx, w.state.chatHistory, freshId, other);
  }

  /** A turn in an ongoing conversation never changes the session key its
      messages are logged under. */
  lemma SubmitKeepsSessionKey(p: Page, w: World, typed: string, o: Turn.Outcomes)
    requires Truthy(w.state.conversationId)
    ensures Transcripts.SessionKey(LogContext(Step(p, w, Submit(typed, o)).state))
            == Transcripts.SessionKey(LogContext(w.state))
  {
  }

  /** The 1000th reply is counted after the input was drawn, so the page it
      leaves behind still offers the input, in a session not finished. */
  lemma LastReplyLeavesInputOpen(p: Page, w: World, typed: string, o: Turn.Outcomes)
    requires w.shown.input && !w.state.finished && w.state.responseCounter == Turn.MaxResponses - 1
    requires typed != "" && Truthy(w.state.conversationId) && o.primary.PrimaryStream?
    ensures var w' := Step(p, w, Submit(typed, o));
            && w'.shown.input && !w'.state.finished
            && w'.state.responseCounter == Turn.MaxResponses
            && w'.state.chatHistory[|w'.state.chatHistory| - 1]
               == Message(Assistant, Turn.PrimaryReply(o.primary.chunks))
  {
  }

  /** A submission through an input left open at the ceiling closes the
      conversation: the user text and the closing message are added, the
      session is finished, and the next page draws the input disabled. */
  lemma SubmissionAtCeilingCloses(p: Page, w: World, typed: string, o: Turn.Outcomes)
    requires w.shown.input && w.state.responseCounter >= Turn.MaxResponses
    requires w.state.chatHistory != [] && typed != ""
    ensures Step(p, w, Submit(typed, o))
            == World(w.state.(chatHistory := w.state.chatHistory + [Message(User, typed), Message(Assistant, Turn.ClosingMessage)],
                              finished := true),
                     w.transcripts, Controls(false, Truthy(w.state.conversationId), false, false))
  {
    Turn.CeilingCloses(w.state, typed, o);
  }

  /** So after the 1000th reply, the next submission is answered with the
      closing message, and the session is then frozen. */
  lemma {:induction false} LastReplyThenClosing(p: Page, w: World, t1: string, o1: Turn.Outcomes,
                                                t2: string, o2: Turn.Outcomes)
    requires w.shown.input && !w.state.finished && w.state.responseCounter == Turn.MaxResponses - 1
    requires t1 != "" && Truthy(w.state.conversationId) && o1.primary.PrimaryStream?
    requires t2 != ""
    ensures var w1 := Step(p, w, Submit(t1, o1));
            var w2 := Step(p, w1, Submit(t2, o2));
            && w2.state.finished && !w2.shown.input
            && w2.state.chatHistory == w1.state.chatHistory + [Message(User, t2), Message(Assistant, Turn.ClosingMessage)]
            && w2.transcripts == w.transcripts
  {
    LastReplyLeavesInputOpen(p, w, t1, o1);
    var w1 := Step(p, w, Submit(t1, o1));
    SubmissionAtCeilingCloses(p, w1, t2, o2);
  }

  /** The New Conversation button is drawn before the turn, so the page
      left by the turn that creates the conversation does not offer it, and
      a press there keeps the conversation. */
  lemma FirstTurnOffersNoNewConversation(p: Page, w: World, typed: string, o: Turn.Outcomes)
    requires !Truthy(w.state.conversationId)
    ensures var w1 := Step(p, w, Submit(typed, o));
            && !w1.shown.newConversation
            && Step(p, w1, NewConversation) == Shown(p, w1.state, w1.transcripts)
  {
  }

  /** When creating the conversation fails the page returns before the
      action buttons: no id is stored, the page offers neither Show Hint nor
      End Study Session, and pressing either changes nothing. */
  lemma FailedCreationOffersNoButtons(p: Page, w: World, typed: string, o: Turn.Outcomes, freshId: string)
    requires w.shown.input && typed != "" && w.state.responseCounter < Turn.MaxResponses
    requires !Truthy(w.state.conversationId) && o.create.CreateFailed?
    ensures var w1 := Step(p, w, Submit(typed, o));
            && w1.state.conversationId == w.state.conversationId
            && !w1.shown.hint && !w1.shown.end
            && Step(p, w1, RevealHint) == Shown(p, w1.state, w1.transcripts)
            && Step(p, w1, EndSession(freshId)) == Shown(p, w1.state, w1.transcripts)
  {
    Turn.SubmissionRequests(EnsureGreeting(w.state), typed, o);
  }
}

=== FILE: wrappers.dfy ===
/** The two carriers used across the model: an optional value (Python's
    `None`) and a value-or-error result (a raised exception). */
module Wrappers {

  datatype Option<+T> = None | Some(value: T)

  datatype Result<+T, +E> = Ok(value: T) | Err(error: E)
}
